=== FILE: README.md ===
# PixelatedChaos inventory core in Dafny

This project models the item-storage core of the PixelatedChaos Unity game and the small pieces of decision logic around it:

- **Slots and inventories.** A slot holds a stack of one named item. The empty name `""` means the slot holds nothing. An inventory is a fixed-length sequence of slots.
- **Item catalog.** A name-to-item dictionary. The first item registered under a name keeps it.
- **Slot and panel views.** These are projections of the inventory. Each view shows an icon, a quantity text and a highlight marker.
- **Toolbar selection.** A small state machine over the toolbar's slot views, driven by the number keys 1 to 9.
- **Terrain classification.** Maps a tile name to a footstep terrain type.
- **Music track index.** The part of the audio manager that keeps track of which background track plays.

Every C# object that the game mutates in place becomes an immutable Dafny value here. Each operation is a pure function that returns the new value:

- `Inventory.Slot` is a datatype, and an inventory is a `seq<Slot>`.
- The view, toolbar, detector and music states are records.
- Null references become `Option` values.
- A sprite is an opaque handle. `NoSprite` stands for null.

One module per source file:

| module | file | models |
|---|---|---|
| `Inventory` | `inventory.dfy` | `Inventory`, `Inventory.Slot` |
| `ItemManager` | `item_manager.dfy` | `ItemManager` |
| `Decimal` | `decimal.dfy` | `int.ToString()` for the quantity text |
| `SlotsUI` | `slots_ui.dfy` | `Slots_UI` |
| `InventoryUI` | `inventory_ui.dfy` | `Inventory_UI` |
| `ToolbarUI` | `toolbar_ui.dfy` | `Toolbar_UI` |
| `TerrainDetector` | `terrain_detector.dfy` | `TerrainDetector` |
| `AudioManager` | `audio_manager.dfy` | the music-track part of `AudioManager` |
| `Wrappers` | `wrappers.dfy` | `Option`, for null references |

Choices made in the model:

- **`MoveSlot` and object aliasing.** The behaviour depends on whether the two slots are the same object.
  - `MoveSlotBetween` covers a different destination inventory.
  - `MoveSlotWithin` covers the same inventory. When both indices are equal, source and destination are one slot object. `MoveSelf` models that case.
- **Bad indices.** C# throws when a list index is out of range. Callers must avoid this, so it is a `requires` on the index.
- **Nondeterminism.** Key presses, `Random.Range` and whether the music source is still playing are parameters.
- **Dictionary order.** The terrain dictionary is an ordered list of (key, type) pairs. The model assumes that the dictionary's `foreach` visits keys in the order they were added. .NET does not document this order; it is how the dictionary behaves when keys are only added, never removed. Under that assumption, the first matching key in insertion order wins.

Behaviour of the code that the model keeps as it is:

- `Add` returns nothing. A full inventory is silently left unchanged.
- `MoveSlot` does not reject moves that overflow the destination or that ask for more than the source holds. Both are recorded under Findings.
- The drag callbacks only record the dragged slot view and log. They move no items.

## Model

| member | source | states |
|---|---|---|
| Inventory.NewSlot | Assets/Scripts/Inventory/Inventory.cs:19-34 | A fresh slot has name "", count 0, limit 99 and no icon. It is empty, and it accepts only the empty name. |
| Inventory.IsEmpty | Assets/Scripts/Inventory/Inventory.cs:26-34 | On a well-formed slot, empty means no units, and the slot then equals the constructor's slot. Taking a unit from an empty slot does nothing. |
| Inventory.CanAddItem | Assets/Scripts/Inventory/Inventory.cs:37-44 | A slot accepts a name exactly when it already holds that name and is below its limit: a different name or a full stack is refused. A slot that accepts a name stays within its limit after one more unit. On a well-formed slot, adding that unit keeps the invariant. An empty slot accepts only the empty name. |
| Inventory.AddItem | Assets/Scripts/Inventory/Inventory.cs:47-52 | Adding an item raises the count by one and takes the item's name and icon. The slot's limit is never changed. |
| Inventory.AddItemWith | Assets/Scripts/Inventory/Inventory.cs:54-60 | The three-argument AddItem raises the count by one and also overwrites name, icon and limit. |
| Inventory.RemoveItem | Assets/Scripts/Inventory/Inventory.cs:63-76 | An empty stack is left unchanged, so the count never goes below 0. Otherwise the count drops by one. Taking the last unit clears the name and icon. The limit is kept. |
| Inventory.RemoveUndoesAddOnInvariant | Assets/Scripts/Inventory/Inventory.cs:63-76 | On a well-formed slot, removing one unit undoes adding one unit of the item the slot holds (or of any named item, if the slot is empty). |
| Inventory.RemoveTimesEffect | Assets/Scripts/Inventory/Inventory.cs:126-129 | k removals lower the count by k, stopping at 0. The limit is kept. Name and icon are cleared exactly when a unit was taken and none is left. |
| Inventory.NewInventory | Assets/Scripts/Inventory/Inventory.cs:82-90 | The constructor yields max(numSlots, 0) slots, each a fresh empty slot. |
| Inventory.FirstMatch | Assets/Scripts/Inventory/Inventory.cs:96-103 | The index found is the lowest one whose slot satisfies the test. "None" means no slot satisfies it. |
| Inventory.Add | Assets/Scripts/Inventory/Inventory.cs:93-114 | Add keeps the number of slots and never changes any slot's limit. |
| Inventory.AddPicksChoice | Assets/Scripts/Inventory/Inventory.cs:93-114 | Add writes the lowest same-named slot with room. If there is none, it writes the lowest slot with an empty name. If there is neither, nothing changes. This matches a search-free description of the choice, in both directions. |
| Inventory.AddChangesOneSlot | Assets/Scripts/Inventory/Inventory.cs:96-113 | A successful Add raises exactly one slot's count by 1 and gives that slot the item's name. All other slots are unchanged, and the total rises by 1. A full inventory is unchanged. |
| Inventory.AddPreservesInvariant | Assets/Scripts/Inventory/Inventory.cs:93-114 | For an item with a non-empty name, Add keeps every slot within its limit. A slot has a name exactly when its count is positive. |
| Inventory.Remove | Assets/Scripts/Inventory/Inventory.cs:117-120 | Remove(index) touches only slot `index`, which becomes RemoveItem of that slot (so name, icon and limit follow RemoveItem). It is a no-op on an empty slot; otherwise the inventory total drops by exactly 1. |
| Inventory.RemoveMany | Assets/Scripts/Inventory/Inventory.cs:122-131 | Remove(index, n) is all or nothing. If the slot holds at least n, exactly n are removed. Otherwise, or for n <= 0, nothing changes. Removing the whole stack empties the slot. The limit is always kept, and a partial removal keeps the name and icon. |
| Inventory.RemovePreservesInvariant | Assets/Scripts/Inventory/Inventory.cs:117-131 | Both Remove forms keep the slot invariant. |
| Inventory.MoveUnitsEffect | Assets/Scripts/Inventory/Inventory.cs:138-141 | k loop rounds empty the source by up to k units. They add exactly k units to the destination, whatever the source held. The destination takes the source's limit. It takes the source's name and icon only if the source did not run dry mid-loop. |
| Inventory.MoveSelfEffect | Assets/Scripts/Inventory/Inventory.cs:138-141 | When source and destination are the same slot object, the count never changes. A non-empty slot is left exactly as it was; an empty slot loses any stale name and icon. |
| Inventory.MoveSlotBetween | Assets/Scripts/Inventory/Inventory.cs:133-144 | MoveSlot between two inventories keeps both lengths. It touches only the two named slots. |
| Inventory.MoveSlotWithin | Assets/Scripts/Inventory/Inventory.cs:133-144 | MoveSlot within one inventory keeps its length. It touches only the two named slots. |
| Inventory.MoveRejected | Assets/Scripts/Inventory/Inventory.cs:137 | If the destination is neither empty nor the same item with room, neither inventory changes. |
| Inventory.MoveRejectedWithin | Assets/Scripts/Inventory/Inventory.cs:137 | Inside one inventory, a rejected move between two distinct slots changes nothing. |
| Inventory.MoveConserves | Assets/Scripts/Inventory/Inventory.cs:137-141 | An accepted move of at most the source count between inventories does the following: the source loses exactly numToMove; the destination gains exactly numToMove and takes the source's name and limit. The sum over both inventories is conserved. |
| Inventory.MoveWithinConserves | Assets/Scripts/Inventory/Inventory.cs:137-141 | The same for two distinct slots of one inventory: the inventory total is conserved. |
| Inventory.MoveOntoItself | Assets/Scripts/Inventory/Inventory.cs:133-144 | Moving a slot onto itself keeps its count. If the slot is non-empty, the whole inventory is unchanged. |
| Inventory.MoveExceedsLimit | Assets/Scripts/Inventory/Inventory.cs:137-141 | Capacity is checked once, before the loop. So an accepted move can leave the destination count above its limit. |
| Inventory.MoveExceedsLimitExample | Assets/Scripts/Inventory/Inventory.cs:137-141 | Example: 98 wood plus a move of 5 wood gives 103 under a limit of 99, which breaks the slot invariant. |
| Inventory.MoveOvershoot | Assets/Scripts/Inventory/Inventory.cs:138-141 | Asking for more than the source holds empties the source. The destination still gains numToMove units, so units appear from nothing. It ends with name "" and no icon. |
| Inventory.MoveFromEmptyCreatesUnit | Assets/Scripts/Inventory/Inventory.cs:137-141 | A move of one unit from an empty slot into an empty slot creates a slot with name "" and count 1. |
| Inventory.MoveChecked | Assets/Scripts/Inventory/Inventory.cs:133-144 | The corrected move changes nothing unless the move is allowed. An allowed move takes exactly numToMove from the source, which is left as numToMove removals leave it: name, icon and limit are kept unless it is emptied, and then it is cleared. The destination gains numToMove units under the source's name, icon and limit, and stays within that limit. The sum is always conserved. |
| Inventory.MoveCheckedPreservesInvariant | Assets/Scripts/Inventory/Inventory.cs:133-144 | The corrected move either changes nothing or moves exactly numToMove units. It conserves the sum and keeps the invariant on both slots. |
| Inventory.MoveCheckedWithin | Assets/Scripts/Inventory/Inventory.cs:133-144 | The corrected move inside one inventory keeps its length and touches only the two named slots. |
| Inventory.CallsPreserveInvariant | Assets/Scripts/Inventory/Inventory.cs:93-131 | Any sequence of Add, Remove, Remove(index, n) and corrected moves keeps the number of slots and the slot invariant. |
| Inventory.FreshInventoryStaysValid | Assets/Scripts/Inventory/Inventory.cs:82-90 | Starting from a new inventory, every slot stays within its limit after any such sequence. |
| Inventory.AddTwiceStacks | Assets/Scripts/Inventory/Inventory.cs:93-114 | Two adds of "wood" into a new 3-slot inventory give ("wood", 2) in slot 0. The other slots stay empty. |
| Inventory.AddSkipsFullStack | Assets/Scripts/Inventory/Inventory.cs:96-113 | A full stack in slot 0 is skipped, and the unit goes to slot 1. |
| Inventory.MoveThreeStone | Assets/Scripts/Inventory/Inventory.cs:133-144 | Moving 3 of ("stone", 5) into an empty slot of another inventory leaves ("stone", 2) and ("stone", 3). |
| Inventory.RemoveWholeStack | Assets/Scripts/Inventory/Inventory.cs:122-131 | Remove(0, 2) on ("wood", 2) leaves an empty slot. |
| ItemManager.AddItem | Assets/Scripts/Inventory/ItemManager.cs:24-31 | Registering adds the item's name to the keys. An existing entry is never overwritten, and a new name maps to the item. |
| ItemManager.Awake | Assets/Scripts/Inventory/ItemManager.cs:14-21 | After start-up, the registered names are exactly the names carried by items in the array, and every registered value is one of those items. |
| ItemManager.AwakeFirstWins | Assets/Scripts/Inventory/ItemManager.cs:14-31 | After Awake, a name is registered exactly when some item in the array carries it. It maps to the first such item in array order. |
| ItemManager.GetItemByName | Assets/Scripts/Inventory/ItemManager.cs:34-45 | Lookup returns the registered item for a registered name and nothing (null) otherwise. It is a pure read of the map. |
| ItemManager.LookupAfterAwake | Assets/Scripts/Inventory/ItemManager.cs:14-45 | Looking up a name in the built catalog gives the first item with that name. It gives nothing exactly when no item carries the name. |
| ItemManager.DuplicateIgnored | Assets/Scripts/Inventory/ItemManager.cs:24-31 | When two items share a name, lookup returns the earlier one. |
| Decimal.NatToString | Assets/Scripts/Inventory/UI/Slots_UI.cs:22 | The count's text is a non-empty string of digits with no leading zero. It is "0" exactly for 0. |
| Decimal.NatToStringRoundTrip | Assets/Scripts/Inventory/UI/Slots_UI.cs:22 | Reading the text back gives the count. |
| Decimal.NatToStringInjective | Assets/Scripts/Inventory/UI/Slots_UI.cs:22 | Different counts are shown as different texts. |
| SlotsUI.SetItem | Assets/Scripts/Inventory/UI/Slots_UI.cs:15-24 | For a slot, SetItem makes the icon visible (alpha 1) and shows the slot's sprite. The text is the count's canonical decimal form (no leading zeros), which reads back as the count. For null, nothing changes. The highlight is never touched. |
| SlotsUI.SetEmpty | Assets/Scripts/Inventory/UI/Slots_UI.cs:27-32 | SetEmpty leaves no sprite, alpha 0 and empty text, so the view no longer shows an item. The highlight is kept. |
| SlotsUI.SetHighlight | Assets/Scripts/Inventory/UI/Slots_UI.cs:34-36 | SetHighlight sets the highlight and changes nothing else. |
| SlotsUI.SetEmptyIdempotent | Assets/Scripts/Inventory/UI/Slots_UI.cs:27-32 | Clearing twice is clearing once. |
| SlotsUI.SetItemIdempotent | Assets/Scripts/Inventory/UI/Slots_UI.cs:15-24 | Showing the same slot twice is showing it once. |
| SlotsUI.ContentIndependentOfPrevious | Assets/Scripts/Inventory/UI/Slots_UI.cs:15-32 | What SetItem and SetEmpty produce does not depend on the previous content, only on the highlight. |
| InventoryUI.Refresh | Assets/Scripts/Inventory/UI/Inventory_UI.cs:41-61 | If the number of views differs from the number of slots, nothing changes. Otherwise view i shows an item iff slot i has a non-empty name. The item shown has the slot's icon, and its text is the count's canonical decimal form. Other views are cleared, and highlights are kept. |
| InventoryUI.RefreshIdempotent | Assets/Scripts/Inventory/UI/Inventory_UI.cs:41-61 | Two refreshes in a row give the same views as one. |
| InventoryUI.RefreshDeterminedByInventory | Assets/Scripts/Inventory/UI/Inventory_UI.cs:41-61 | View lists with equal highlights refresh to identical views. So the result depends only on the inventory. |
| InventoryUI.ToggleInventory | Assets/Scripts/Inventory/UI/Inventory_UI.cs:25-38 | Toggling flips the panel's active flag. It refreshes only when opening, and never changes the inventory. |
| InventoryUI.ToggleTwice | Assets/Scripts/Inventory/UI/Inventory_UI.cs:25-38 | Toggling twice restores the panel's open/closed state. |
| InventoryUI.Update | Assets/Scripts/Inventory/UI/Inventory_UI.cs:14-22 | Each frame refreshes and toggles on the inventory key. It never changes the inventory or the drag state. |
| InventoryUI.Remove | Assets/Scripts/Inventory/UI/Inventory_UI.cs:64-77 | If the slot's name is not in the catalog, nothing changes and nothing is dropped. Otherwise the catalogued item is dropped, one unit is removed from that slot, and the views are refreshed. The panel's open flag and drag state are kept. |
| InventoryUI.RemoveTakesOneUnit | Assets/Scripts/Inventory/UI/Inventory_UI.cs:64-77 | For a catalogued, occupied slot, exactly one unit leaves that slot and no other slot changes. |
| InventoryUI.HandleDrag | Assets/Scripts/Inventory/UI/Inventory_UI.cs:79-94 | Begin-drag only records the dragged slot view. The other callbacks change nothing. The inventory and the views are never changed. |
| InventoryUI.DragsNeverMutate | Assets/Scripts/Inventory/UI/Inventory_UI.cs:79-94 | No sequence of drag callbacks changes the inventory or the views. |
| ToolbarUI.HighlightRef | Assets/Scripts/Inventory/UI/Toolbar_UI.cs:21-28 | Setting the highlight through a non-null reference changes that view's highlight only; its sprite, alpha and text are kept. A null reference changes nothing. |
| ToolbarUI.SelectSlot | Assets/Scripts/Inventory/UI/Toolbar_UI.cs:19-30 | An index outside [0, count) changes nothing. Otherwise the selection becomes toolbarSlots[index], which is highlighted. The previously selected view is un-highlighted, and no other view changes. No view changes in anything but its highlight. |
| ToolbarUI.SelectKeepsSingleHighlight | Assets/Scripts/Inventory/UI/Toolbar_UI.cs:19-30 | Selecting preserves the rule that only the selected view is highlighted. |
| ToolbarUI.AtMostOneHighlighted | Assets/Scripts/Inventory/UI/Toolbar_UI.cs:19-30 | Start with nothing highlighted. After any sequence of selections, at most one view is highlighted, and it is the selected one. This holds even when entries repeat or are null. |
| ToolbarUI.Start | Assets/Scripts/Inventory/UI/Toolbar_UI.cs:11-13 | Start selects entry 0 and highlights its view, or does nothing on an empty toolbar. The toolbar stays valid, and views change only in their highlight. If only the selected view was highlighted before, that still holds. |
| ToolbarUI.CheckAlphaNumericKeys | Assets/Scripts/Inventory/UI/Toolbar_UI.cs:32-41 | The key loop keeps the toolbar valid. It either changes nothing, or it leaves selected the entry named by one of the pressed keys. Views change only in their highlight. If only the selected view was highlighted before, that still holds. |
| ToolbarUI.NoKeyFromUnchanged | Assets/Scripts/Inventory/UI/Toolbar_UI.cs:34-40 | If no pressed key from i on names an entry, the rest of the key loop changes nothing. |
| ToolbarUI.HighestKeyFromWins | Assets/Scripts/Inventory/UI/Toolbar_UI.cs:34-40 | From i on, the highest pressed key that names an entry decides the selection. |
| ToolbarUI.HighestKeyWins | Assets/Scripts/Inventory/UI/Toolbar_UI.cs:32-41 | Key Alpha1+i selects entry i for i in 0..8. If several keys fire in one frame, the highest one that names an entry wins. If none does, nothing changes. |
| TerrainDetector.ToLowerChar | Assets/Scripts/TerrainDetector.cs:62 | 'A'..'Z' map to 'a'..'z', so the result is never an upper-case letter. Other characters are kept. |
| TerrainDetector.ToLower | Assets/Scripts/TerrainDetector.cs:62 | Lowercasing keeps the length and maps each character independently. |
| TerrainDetector.ToLowerIdempotent | Assets/Scripts/TerrainDetector.cs:62 | Lowercasing leaves a lower-case string, and lowercasing twice is lowercasing once. |
| TerrainDetector.Contains | Assets/Scripts/TerrainDetector.cs:66 | The left-to-right search succeeds iff the key occurs at some position of the name. |
| TerrainDetector.InitializeTileMapping | Assets/Scripts/TerrainDetector.cs:36-46 | The mapping holds grass, dirt, gravel, wood, stone and water, in that order, each mapped to its own terrain. The six keys are distinct, non-empty and lower-case. |
| TerrainDetector.ClassifyFirstKeyWins | Assets/Scripts/TerrainDetector.cs:62-76 | The first key, in mapping order, that occurs in the lowercased name gives the terrain. When no key occurs, the terrain is Grass. |
| TerrainDetector.Classify | Assets/Scripts/TerrainDetector.cs:62-76 | The result is Grass or the terrain of some key that occurs in the lowercased tile name. |
| TerrainDetector.ClassifyCaseInsensitive | Assets/Scripts/TerrainDetector.cs:62-66 | A tile name and its lowercased form classify alike. |
| TerrainDetector.ClassifyStoneDirt | Assets/Scripts/TerrainDetector.cs:40-45 | "Stone_Dirt" classifies as Dirt, because "dirt" is added before "stone". |
| TerrainDetector.ClassifySand | Assets/Scripts/TerrainDetector.cs:74-76 | "Sand" matches no key and defaults to Grass. |
| TerrainDetector.NewDetector | Assets/Scripts/TerrainDetector.cs:15 | The initial terrain is Grass. |
| TerrainDetector.Start | Assets/Scripts/TerrainDetector.cs:17-27 | Start installs exactly the initial mapping and keeps the current terrain. |
| TerrainDetector.SetTerrainType | Assets/Scripts/TerrainDetector.cs:80-92 | The stored type becomes t. The audio manager is notified only when t differs from the current type and an audio manager exists. Repeating a type is a no-op. |
| TerrainDetector.GetCurrentTerrainType | Assets/Scripts/TerrainDetector.cs:95-98 | The getter returns the held type: storing it again changes nothing and notifies nobody. |
| TerrainDetector.GetReturnsLastSet | Assets/Scripts/TerrainDetector.cs:95-98 | The getter returns the last type stored. Storing it again notifies nobody. |
| TerrainDetector.DetectTerrain | Assets/Scripts/TerrainDetector.cs:49-77 | With no tilemap or no tile, the terrain becomes Grass. Otherwise it is the classification of the tile name. A notification carries the new terrain. It is sent exactly when the terrain changed and an audio manager exists. The mapping is never changed. |
| TerrainDetector.DetectTwiceQuiet | Assets/Scripts/TerrainDetector.cs:49-92 | Detecting on the same tile twice in a row notifies nothing the second time. |
| AudioManager.Initial | Assets/Scripts/AudioManager.cs:18-20 | Music starts with the given number of tracks, index 0, not playing and no clip, and the index is valid. |
| AudioManager.PlayMusicTrack | Assets/Scripts/AudioManager.cs:312-322 | An out-of-range index, or zero tracks, changes nothing. A valid index plays that clip and sets isMusicPlaying. The current track index is never changed. |
| AudioManager.PlayRandomMusicTrack | Assets/Scripts/AudioManager.cs:292-299 | With zero tracks nothing changes. Otherwise the index becomes the random pick in [0, n), and that track plays. |
| AudioManager.PlayNextMusicTrack | Assets/Scripts/AudioManager.cs:302-309 | With zero tracks nothing changes. Otherwise the index becomes (i+1) mod n, which stays in [0, n), and that track plays. |
| AudioManager.Update | Assets/Scripts/AudioManager.cs:91-97 | The track advances only when music was started and the source is not playing. Otherwise nothing changes. |
| AudioManager.Start | Assets/Scripts/AudioManager.cs:83-89 | With music on start enabled and at least one track, the randomly picked track becomes current and its clip plays. Otherwise, including with no tracks, nothing changes. The number of tracks is always kept. |
| AudioManager.NextTimesIndex | Assets/Scripts/AudioManager.cs:306 | After k advances the index is (i + k) mod n. |
| AudioManager.NextCycles | Assets/Scripts/AudioManager.cs:306 | n successive advances return to the starting index. |
| AudioManager.PlayingNeverStops | Assets/Scripts/AudioManager.cs:312-322 | Over any sequence of music calls the index stays valid. Once isMusicPlaying is true it stays true, because no code resets it. |

## Left out

- Rendering, sprites, colours and TextMeshPro are reduced to a sprite handle, an alpha value, a text and a highlight flag. GameObject activation is a boolean.
- `Debug.Log` output is not modelled. Neither is the NullReferenceException the drag callbacks other than begin-drag raise when no drag has started. In both cases the inventory and views are unchanged, and that is what the model states.
- `Player.DropItem` (spawning the item in the world with a random impulse) is reduced to reporting which item was dropped.
- The `GameManager` singleton is replaced by passing the catalog explicitly.
- The `AudioManager.instance` singleton, as the terrain detector sees it, is reduced to the `audioPresent` flag. What the audio manager does with the terrain it receives (footstep clips) is not modelled.
- Inventory.AddItem: `count` is a mathematical natural number. The model does not include the 32-bit wrap-around that `count++` would hit past 2,147,483,647. That needs a move of about two billion units. The same holds for `count++` in Inventory.AddItemWith.
- AudioManager.PlayRandomMusicTrack: the random choice is the parameter `pick`. The model states the result for every pick in [0, n) rather than modelling the random generator.
- The audio manager's footstep timing, pitch and volume are left out, because they are floating-point, frame-time driven sound control. Clip loading through AssetDatabase/Resources is left out too; the clip list is reduced to its length.
- TerrainDetector.ToLower: lowercases ASCII letters only. .NET's culture-sensitive `ToLower` also maps other letters. Finding the scene's tilemap and converting world positions to cells is an engine call; its result is the `tileName` parameter.
- `Collectable` calls an `Add("Backpack", item)` overload that `Inventory` (Assets/Scripts/Inventory/Inventory.cs) does not define. Only the single-inventory `Add(Item)` is modelled.
- `InventoryManager`, `PlayerAudioHandler`, the editor tooling, the combat and creature classes, and `Tree` are not part of this model. They are physics, animation or input glue with no inventory data invariants. `Player` creates its inventory with 21 slots; `NewInventory` covers any slot count.

## Findings

| source | as written | input that shows it | evidently intended | confidence | as-written member | corrected member |
|---|---|---|---|---|---|---|
| Assets/Scripts/Inventory/Inventory.cs:137-141 | Capacity is checked once, before the loop, so the loop can push the destination past maxAllowed | destination ("wood", 98, limit 99), source ("wood", 5), numToMove 5: destination ends at 103 | reject a move that would overflow the destination, in full | not executed; high | Inventory.MoveExceedsLimitExample | Inventory.MoveChecked |
| Assets/Scripts/Inventory/Inventory.cs:138-141 | The loop runs numToMove times even after the source is empty, so units appear from nothing and the destination's name is wiped | source ("stone", 2), empty destination, numToMove 3: destination becomes ("", 3), source empty | reject a move of more than the source holds | not executed; high | Inventory.MoveOvershoot | Inventory.MoveChecked |

`Inventory.MoveCheckedPreservesInvariant` proves that the corrected move keeps the slot invariant on both slots. `Inventory.MoveChecked` is used for two distinct slots and `Inventory.MoveCheckedWithin` inside one inventory. `Inventory.CallsPreserveInvariant` uses the corrected move to show that the slot invariant survives any sequence of inventory calls.

=== FILE: audio_manager.dfy ===
/**
 * The background-music bookkeeping of the audio manager: how many ambient
 * tracks were loaded, the index of the current track, whether music has been
 * started, and the track last handed to the music source. Clips are known
 * only by their index; whether the source is still playing is an input.
 */
module AudioManager {
  import opened Wrappers

  datatype Music = Music(trackCount: nat, currentTrackIndex: nat, isMusicPlaying: bool, clip: Option<nat>)

  /** The track index names a loaded track whenever there is one. */
  predicate Valid(m: Music) {
    m.trackCount > 0 ==> m.currentTrackIndex < m.trackCount
  }

  /** The state after loading `trackCount` tracks: index 0, no music started. */
  function Initial(trackCount: nat): (m: Music)
    ensures Valid(m) && !m.isMusicPlaying && m.clip.None?
    ensures m.trackCount == trackCount && m.currentTrackIndex == 0
  {
    Music(trackCount, 0, false, None)
  }

  /**
   * `PlayMusicTrack(index)`: an index naming a loaded track starts that clip
   * and marks music as playing; any other index changes nothing. The current
   * track index is never touched here.
   */
  function PlayMusicTrack(m: Music, index: int): (r: Music)
    ensures r.currentTrackIndex == m.currentTrackIndex && r.trackCount == m.trackCount
    ensures !(0 <= index < m.trackCount) ==> r == m
    ensures 0 <= index < m.trackCount ==> r.clip == Some(index) && r.isMusicPlaying
    ensures m.isMusicPlaying ==> r.isMusicPlaying
  {
    if m.trackCount > 0 && 0 <= index < m.trackCount then
      m.(clip := Some(index), isMusicPlaying := true)
    else
      m
  }

  /**
   * `PlayRandomMusicTrack`: `pick` is the value `Random.Range(0, count)`
   * returns, any index of a loaded track. With no tracks nothing changes.
   */
  function PlayRandomMusicTrack(m: Music, pick: int): (r: Music)
    requires m.trackCount > 0 ==> 0 <= pick < m.trackCount
    ensures m.trackCount == 0 ==> r == m
    ensures m.trackCount > 0 ==>
      && r.currentTrackIndex == pick && Valid(r)
      && r.clip == Some(pick) && r.isMusicPlaying
    ensures r.trackCount == m.trackCount
    ensures m.isMusicPlaying ==> r.isMusicPlaying
  {
    if m.trackCount > 0 then PlayMusicTrack(m.(currentTrackIndex := pick), pick) else m
  }

  /**
   * `PlayNextMusicTrack`: advances the index by one, wrapping to 0 after the
   * last track, and plays it. With no tracks nothing changes. The index is
   * never negative, so C#'s remainder agrees with Dafny's here.
   */
  function PlayNextMusicTrack(m: Music): (r: Music)
    ensures m.trackCount == 0 ==> r == m
    ensures m.trackCount > 0 ==>
      && r.currentTrackIndex == (m.currentTrackIndex + 1) % m.trackCount
      && Valid(r)
      && r.clip == Some(r.currentTrackIndex) && r.isMusicPlaying
    ensures r.trackCount == m.trackCount
    ensures m.isMusicPlaying ==> r.isMusicPlaying
  {
    if m.trackCount > 0 then
      var next := (m.currentTrackIndex + 1) % m.trackCount;
      PlayMusicTrack(m.(currentTrackIndex := next), next)
    else
      m
  }

  /** The music part of `Update`: when music was started and the source has stopped, play the next track. */
  function Update(m: Music, sourceIsPlaying: bool): (r: Music)
    ensures m.isMusicPlaying && !sourceIsPlaying ==> r == PlayNextMusicTrack(m)
    ensures !(m.isMusicPlaying && !sourceIsPlaying) ==> r == m
  {
    if m.isMusicPlaying && !sourceIsPlaying then PlayNextMusicTrack(m) else m
  }

  /** `Start`: plays a random track when music on start is enabled. */
  function Start(m: Music, playMusicOnStart: bool, pick: int): (r: Music)
    requires m.trackCount > 0 ==> 0 <= pick < m.trackCount
    ensures playMusicOnStart && m.trackCount > 0 ==>
      r.isMusicPlaying && r.currentTrackIndex == pick && r.clip == Some(pick) && Valid(r)
    ensures !playMusicOnStart || m.trackCount == 0 ==> r == m
    ensures r.trackCount == m.trackCount
  {
    if playMusicOnStart then PlayRandomMusicTrack(m, pick) else m
  }

  /** `PlayNextMusicTrack` called `k` times in a row. */
  function NextTimes(m: Music, k: nat): Music
    decreases k
  {
    if k == 0 then m else PlayNextMusicTrack(NextTimes(m, k - 1))
  }

  /** A value written as `q * n + r` with `0 <= r < n` leaves remainder `r`. */
  lemma ModUnique(x: int, n: int, q: int, r: int)
    requires n > 0 && 0 <= r < n && x == q * n + r
    ensures x % n == r
  {
    var q', r' := x / n, x % n;
    assert x == q' * n + r';
    assert (q - q') * n == r' - r;
    MulSign(q - q', n);
  }

  /** A non-zero multiple of a positive `n` is at least `n` away from 0. */
  lemma MulSign(d: int, n: int)
    requires n > 0
    ensures d >= 1 ==> d * n >= n
    ensures d <= -1 ==> d * n <= -n
    ensures d == 0 ==> d * n == 0
  {
  }

  /** Taking the remainder before adding one does not change the remainder after. */
  lemma ModSucc(a: nat, n: nat)
    requires n > 0
    ensures (a % n + 1) % n == (a + 1) % n
  {
    var q, r := a / n, a % n;
    if r + 1 < n {
      ModUnique(a + 1, n, q, r + 1);
      ModUnique(r + 1, n, 0, r + 1);
    } else {
      ModUnique(a + 1, n, q + 1, 0);
      ModUnique(r + 1, n, 1, 0);
    }
  }

  /** After `k` advances the index has moved on by `k`, modulo the number of tracks. */
  lemma {:induction false} NextTimesIndex(m: Music, k: nat)
    requires Valid(m) && m.trackCount > 0
    ensures NextTimes(m, k).trackCount == m.trackCount
    ensures NextTimes(m, k).currentTrackIndex == (m.currentTrackIndex + k) % m.trackCount
    decreases k
  {
    if k == 0 {
      ModUnique(m.currentTrackIndex, m.trackCount, 0, m.currentTrackIndex);
    } else {
      NextTimesIndex(m, k - 1);
      ModSucc(m.currentTrackIndex + k - 1, m.trackCount);
    }
  }

  /** As many advances as there are tracks bring the index back where it started. */
  lemma NextCycles(m: Music)
    requires Valid(m) && m.trackCount > 0
    ensures NextTimes(m, m.trackCount).currentTrackIndex == m.currentTrackIndex
  {
    NextTimesIndex(m, m.trackCount);
    ModUnique(m.currentTrackIndex + m.trackCount, m.trackCount, 1, m.currentTrackIndex);
  }

  /** The calls that touch the music state. */
  datatype MusicCall = RandomTrack(pick: int) | NextTrack | Track(index: int) | Frame(sourceIsPlaying: bool)

  /** The random picks of a call list are all indices of loaded tracks. */
  predicate PicksInRange(trackCount: nat, calls: seq<MusicCall>) {
    forall i :: 0 <= i < |calls| && calls[i].RandomTrack? ==> 0 <= calls[i].pick < trackCount
  }

  function Apply(m: Music, c: MusicCall): (r: Music)
    requires c.RandomTrack? && m.trackCount > 0 ==> 0 <= c.pick < m.trackCount
    ensures r.trackCount == m.trackCount
    ensures Valid(m) ==> Valid(r)
    ensures m.isMusicPlaying ==> r.isMusicPlaying
  {
    match c
    case RandomTrack(pick) => PlayRandomMusicTrack(m, pick)
    case NextTrack => PlayNextMusicTrack(m)
    case Track(index) => PlayMusicTrack(m, index)
    case Frame(sourceIsPlaying) => Update(m, sourceIsPlaying)
  }

  function ApplyAll(m: Music, calls: seq<MusicCall>): (r: Music)
    requires PicksInRange(m.trackCount, calls)
    ensures r.trackCount == m.trackCount
    decreases |calls|
  {
    if |calls| == 0 then m
    else
      PicksInRangeTail(m.trackCount, calls);
      ApplyAll(Apply(m, calls[0]), calls[1..])
  }

  lemma PicksInRangeTail(trackCount: nat, calls: seq<MusicCall>)
    requires |calls| > 0 && PicksInRange(trackCount, calls)
    ensures PicksInRange(trackCount, calls[1..])
  {
    forall i | 0 <= i < |calls[1..]| && calls[1..][i].RandomTrack?
      ensures 0 <= calls[1..][i].pick < trackCount
    {
      assert calls[1..][i] == calls[i + 1];
    }
  }

  /**
   * Over any sequence of calls the index stays valid, and once music has been
   * started `isMusicPlaying` stays true: nothing ever sets it back to false.
   */
  lemma {:induction false} PlayingNeverStops(m: Music, calls: seq<MusicCall>)
    requires Valid(m) && PicksInRange(m.trackCount, calls)
    ensures Valid(ApplyAll(m, calls))
    ensures m.isMusicPlaying ==> ApplyAll(m, calls).isMusicPlaying
    decreases |calls|
  {
    if |calls| > 0 {
      PicksInRangeTail(m.trackCount, calls);
      PlayingNeverStops(Apply(m, calls[0]), calls[1..]);
    }
  }
}

=== FILE: decimal.dfy ===
/**
 * The decimal form `int.ToString()` gives a non-negative count, as shown in a
 * slot's quantity text, together with the value it reads back as.
 */
module Decimal {

  predicate IsDigit(c: char) {
    '0' <= c <= '9'
  }

  predicate AllDigits(s: string) {
    forall i :: 0 <= i < |s| ==> IsDigit(s[i])
  }

  function DigitChar(d: nat): (c: char)
    requires d < 10
    ensures IsDigit(c) && c as int - '0' as int == d
  {
    ('0' as int + d) as char
  }

  /** The decimal numeral of `n`: only digits, and no leading zero unless `n` is 0. */
  function NatToString(n: nat): (s: string)
    ensures |s| >= 1 && AllDigits(s)
    ensures |s| > 1 ==> s[0] != '0'
    ensures n == 0 <==> s == "0"
    decreases n
  {
    if n < 10 then [DigitChar(n)] else NatToString(n / 10) + [DigitChar(n % 10)]
  }

  /** The number a string of decimal digits denotes. */
  function DigitsValue(s: string): nat
    requires AllDigits(s)
    decreases |s|
  {
    if |s| == 0 then 0
    else DigitsValue(s[..|s| - 1]) * 10 + (s[|s| - 1] as int - '0' as int)
  }

  /** Reading the numeral back gives the number shown. */
  lemma {:induction false} NatToStringRoundTrip(n: nat)
    ensures DigitsValue(NatToString(n)) == n
    decreases n
  {
    if n >= 10 {
      NatToStringRoundTrip(n / 10);
      var s := NatToString(n);
      assert s[..|s| - 1] == NatToString(n / 10);
    }
  }

  /** Distinct counts are shown as distinct texts. */
  lemma NatToStringInjective(m: nat, n: nat)
    requires NatToString(m) == NatToString(n)
    ensures m == n
  {
    NatToStringRoundTrip(m);
    NatToStringRoundTrip(n);
  }
}

=== FILE: inventory.dfy ===
/**
 * The inventory data model: a `Slot` holds a stack of one named item, and an
 * inventory is a fixed-length sequence of slots. Every operation is a pure
 * function that returns the new slot values; an object that the game mutates
 * in place is here replaced by its value after the call.
 */
module Inventory {
  import opened Wrappers

  /** An opaque sprite handle; `NoSprite` stands for a null sprite reference. */
  datatype Sprite = NoSprite | Sprite(handle: nat)

  /** What an item brings into a slot: the name and icon of its item data. */
  datatype Item = Item(itemName: string, icon: Sprite)

  /** The stack limit a fresh slot starts with. */
  const DefaultMaxAllowed: int := 99

  /** One storage cell. The empty name `""` marks a slot that holds nothing. */
  datatype Slot = Slot(itemName: string, count: nat, maxAllowed: int, icon: Sprite)

  // ---------------------------------------------------------------------------
  // Slot
  // ---------------------------------------------------------------------------

  /**
   * `IsEmpty`: no name and no units. On a well-formed slot this means no
   * units at all, and the slot is then the one the constructor makes;
   * taking a unit from an empty slot does nothing.
   */
  predicate IsEmpty(s: Slot)
    ensures Invariant(s) ==> (IsEmpty(s) <==> s.count == 0)
    ensures Invariant(s) ==> (IsEmpty(s) <==> s == Slot("", 0, DefaultMaxAllowed, NoSprite))
    ensures IsEmpty(s) ==> RemoveItem(s) == s
  {
    s.itemName == "" && s.count == 0
  }

  /**
   * Whether the slot already holds `itemName` and still has room for one
   * more: adding one unit under that name then stays within the limit. An
   * empty slot with a positive limit accepts only the empty name, so it is
   * never chosen through this test for a named item.
   */
  predicate CanAddItem(s: Slot, itemName: string)
    ensures CanAddItem(s, itemName) ==> AddItemWith(s, itemName, s.icon, s.maxAllowed).count <= s.maxAllowed
    ensures Invariant(s) && itemName != "" && CanAddItem(s, itemName) ==>
      Invariant(AddItemWith(s, itemName, s.icon, s.maxAllowed))
    ensures IsEmpty(s) && s.maxAllowed > 0 ==> (CanAddItem(s, itemName) <==> itemName == "")
    ensures s.itemName != itemName ==> !CanAddItem(s, itemName)
    ensures s.count >= s.maxAllowed ==> !CanAddItem(s, itemName)
    ensures s.itemName == itemName && s.count < s.maxAllowed ==> CanAddItem(s, itemName)
  {
    s.itemName == itemName && s.count < s.maxAllowed
  }

  /**
   * The shape every slot keeps as long as items have non-empty names and
   * stacks stay within their limit: the default limit, a count within it,
   * a name exactly when the count is positive, and no icon on an empty slot.
   */
  predicate Invariant(s: Slot) {
    && s.maxAllowed == DefaultMaxAllowed
    && s.count <= s.maxAllowed
    && (s.count == 0 <==> s.itemName == "")
    && (s.count == 0 ==> s.icon == NoSprite)
  }

  /** A slot as its constructor leaves it. */
  function NewSlot(): (s: Slot)
    ensures IsEmpty(s) && Invariant(s)
    ensures s.maxAllowed == 99
    ensures forall name: string :: CanAddItem(s, name) <==> name == ""
  {
    Slot("", 0, DefaultMaxAllowed, NoSprite)
  }

  /** `AddItem(Item)`: takes the item's name and icon and adds one unit; the limit is left alone. */
  function AddItem(s: Slot, item: Item): (r: Slot)
    ensures r.count == s.count + 1
    ensures r.itemName == item.itemName && r.icon == item.icon
    ensures r.maxAllowed == s.maxAllowed
  {
    s.(itemName := item.itemName, icon := item.icon, count := s.count + 1)
  }

  /** `AddItem(name, icon, maxAllowed)`: like `AddItem(Item)` but also overwrites the limit. */
  function AddItemWith(s: Slot, itemName: string, icon: Sprite, maxAllowed: int): (r: Slot)
    ensures r.count == s.count + 1
    ensures r.itemName == itemName && r.icon == icon && r.maxAllowed == maxAllowed
  {
    Slot(itemName, s.count + 1, maxAllowed, icon)
  }

  /**
   * `RemoveItem`: takes one unit from a non-empty stack; taking the last unit
   * clears the name and the icon. An empty stack is left as it is.
   */
  function RemoveItem(s: Slot): (r: Slot)
    ensures s.count == 0 ==> r == s
    ensures s.count > 0 ==> r.count == s.count - 1
    ensures r.maxAllowed == s.maxAllowed
    ensures s.count > 1 ==> r.itemName == s.itemName && r.icon == s.icon
    ensures s.count == 1 ==> r.itemName == "" && r.icon == NoSprite
  {
    if s.count > 0 then
      if s.count - 1 == 0 then s.(count := 0, icon := NoSprite, itemName := "")
      else s.(count := s.count - 1)
    else s
  }

  /** Removing a unit undoes adding one of the same item to a stack that already held it. */
  lemma RemoveUndoesAdd(s: Slot, item: Item)
    requires s.count > 0 && s.itemName == item.itemName && s.icon == item.icon
    ensures RemoveItem(AddItem(s, item)) == s
  {
  }

  /** On a slot that keeps the invariant, adding then removing one unit restores it. */
  lemma RemoveUndoesAddOnInvariant(s: Slot, item: Item)
    requires Invariant(s) && item.itemName != ""
    requires s.count > 0 ==> s.itemName == item.itemName && s.icon == item.icon
    ensures RemoveItem(AddItem(s, item)) == s
  {
  }

  /** `RemoveItem` applied `k` times in a row. */
  function RemoveTimes(s: Slot, k: nat): (r: Slot)
    decreases k
  {
    if k == 0 then s else RemoveTimes(RemoveItem(s), k - 1)
  }

  /**
   * Removing `k` units one at a time lowers the count by `k`, never below 0,
   * keeps the limit, and clears the name and icon exactly when a unit was
   * taken and none is left.
   */
  lemma {:induction false} RemoveTimesEffect(s: Slot, k: nat)
    ensures RemoveTimes(s, k).count == if k <= s.count then s.count - k else 0
    ensures RemoveTimes(s, k).maxAllowed == s.maxAllowed
    ensures k < s.count || k == 0 ==>
      RemoveTimes(s, k).itemName == s.itemName && RemoveTimes(s, k).icon == s.icon
    ensures s.count > 0 && k >= s.count ==>
      RemoveTimes(s, k).itemName == "" && RemoveTimes(s, k).icon == NoSprite
    ensures s.count == 0 ==> RemoveTimes(s, k) == s
    decreases k
  {
    if k > 0 {
      RemoveTimesEffect(RemoveItem(s), k - 1);
    }
  }

  // ---------------------------------------------------------------------------
  // Inventory
  // ---------------------------------------------------------------------------

  /** The constructor `Inventory(numSlots)`: one fresh slot per iteration; a negative count makes none. */
  function NewInventory(numSlots: int): (inv: seq<Slot>)
    ensures |inv| == if numSlots < 0 then 0 else numSlots
    ensures forall i :: 0 <= i < |inv| ==> IsEmpty(inv[i]) && inv[i] == NewSlot()
    decreases numSlots
  {
    if numSlots <= 0 then [] else NewInventory(numSlots - 1) + [NewSlot()]
  }

  /** The sum of the counts over all slots. */
  function TotalCount(inv: seq<Slot>): nat
  {
    if |inv| == 0 then 0 else TotalCount(inv[..|inv| - 1]) + inv[|inv| - 1].count
  }

  /** Replacing one slot changes the total by the difference of the two counts. */
  lemma {:induction false} TotalCountUpdate(inv: seq<Slot>, i: nat, s: Slot)
    requires i < |inv|
    ensures TotalCount(inv[i := s]) == TotalCount(inv) - inv[i].count + s.count
    decreases |inv|
  {
    var last := |inv| - 1;
    assert inv[i := s][..last] == if i == last then inv[..last] else inv[..last][i := s];
    if i < last {
      TotalCountUpdate(inv[..last], i, s);
    }
  }

  /** The index of the first slot satisfying `p`, scanning from index 0. */
  function FirstMatch(inv: seq<Slot>, p: Slot -> bool): (r: Option<nat>)
    ensures r.Some? ==> r.value < |inv| && p(inv[r.value])
    ensures r.Some? ==> forall j :: 0 <= j < r.value ==> !p(inv[j])
    ensures r.None? ==> forall j :: 0 <= j < |inv| ==> !p(inv[j])
    decreases |inv|
  {
    if |inv| == 0 then None
    else if p(inv[0]) then Some(0)
    else
      match FirstMatch(inv[1..], p)
      case None => None
      case Some(k) => Some(k + 1)
  }

  /** The first loop of `Add`: a slot with the same name that still has room. */
  predicate Stackable(s: Slot, itemName: string) {
    s.itemName == itemName && CanAddItem(s, itemName)
  }

  /** The second loop of `Add`: a slot whose name is empty (the count is not looked at). */
  predicate Vacant(s: Slot) {
    s.itemName == ""
  }

  /** The slot `Add` writes to, if any. */
  function AddTarget(inv: seq<Slot>, itemName: string): Option<nat>
  {
    match FirstMatch(inv, s => Stackable(s, itemName))
    case Some(i) => Some(i)
    case None => FirstMatch(inv, Vacant)
  }

  /**
   * `Add(Item)`: stacks onto the first same-named slot with room, otherwise
   * fills the first slot with an empty name, otherwise does nothing.
   */
  function Add(inv: seq<Slot>, item: Item): (r: seq<Slot>)
    ensures |r| == |inv|
    ensures forall i :: 0 <= i < |r| ==> r[i].maxAllowed == inv[i].maxAllowed
  {
    match AddTarget(inv, item.itemName)
    case None => inv
    case Some(i) => inv[i := AddItem(inv[i], item)]
  }

  /**
   * Slot `i` is the one `Add` must choose, stated without the search: the
   * lowest same-named slot with room, or, when there is none anywhere, the
   * lowest slot with an empty name.
   */
  ghost predicate AddChoice(inv: seq<Slot>, itemName: string, i: int) {
    && 0 <= i < |inv|
    && (|| (Stackable(inv[i], itemName) && forall j :: 0 <= j < i ==> !Stackable(inv[j], itemName))
        || (&& (forall j :: 0 <= j < |inv| ==> !Stackable(inv[j], itemName))
            && Vacant(inv[i])
            && forall j :: 0 <= j < i ==> !Vacant(inv[j])))
  }

  /** Whether `Add` finds a place for an item with this name. */
  ghost predicate HasRoom(inv: seq<Slot>, itemName: string) {
    exists j :: 0 <= j < |inv| && (Stackable(inv[j], itemName) || Vacant(inv[j]))
  }

  /** `Add` writes exactly the slot `AddChoice` names, and does nothing when there is no room. */
  lemma AddPicksChoice(inv: seq<Slot>, item: Item)
    ensures forall i :: AddChoice(inv, item.itemName, i) ==> Add(inv, item) == inv[i := AddItem(inv[i], item)]
    ensures !HasRoom(inv, item.itemName) ==> Add(inv, item) == inv
    ensures HasRoom(inv, item.itemName) <==> exists i :: AddChoice(inv, item.itemName, i)
  {
    var name := item.itemName;
    var st := FirstMatch(inv, s => Stackable(s, name));
    var va := FirstMatch(inv, Vacant);
    if st.Some? {
      assert AddChoice(inv, name, st.value);
    } else if va.Some? {
      assert AddChoice(inv, name, va.value);
    }
    forall i | AddChoice(inv, name, i)
      ensures Add(inv, item) == inv[i := AddItem(inv[i], item)]
    {
      if st.Some? {
        assert st.value == i by {
          if st.value < i {} else if st.value > i {}
        }
      } else {
        assert va.Some? && va.value == i by {
          if va.Some? && va.value < i {} else if va.Some? && va.value > i {}
        }
      }
    }
  }

  /**
   * A successful `Add` raises exactly one slot's count by one and leaves every
   * other slot as it was; a full inventory is left unchanged.
   */
  lemma AddChangesOneSlot(inv: seq<Slot>, item: Item)
    ensures HasRoom(inv, item.itemName) ==>
      exists i :: && 0 <= i < |inv|
                  && Add(inv, item)[i].count == inv[i].count + 1
                  && Add(inv, item)[i].itemName == item.itemName
                  && (forall j :: 0 <= j < |inv| && j != i ==> Add(inv, item)[j] == inv[j])
    ensures HasRoom(inv, item.itemName) ==> TotalCount(Add(inv, item)) == TotalCount(inv) + 1
    ensures !HasRoom(inv, item.itemName) ==> Add(inv, item) == inv
  {
    AddPicksChoice(inv, item);
    if HasRoom(inv, item.itemName) {
      var i :| AddChoice(inv, item.itemName, i);
      TotalCountUpdate(inv, i, AddItem(inv[i], item));
    }
  }

  /** `Add` keeps the slot invariant as long as the item has a non-empty name. */
  lemma AddPreservesInvariant(inv: seq<Slot>, item: Item)
    requires item.itemName != ""
    requires forall i :: 0 <= i < |inv| ==> Invariant(inv[i])
    ensures forall i :: 0 <= i < |inv| ==> Invariant(Add(inv, item)[i])
  {
    AddPicksChoice(inv, item);
    if HasRoom(inv, item.itemName) {
      var i :| AddChoice(inv, item.itemName, i);
      assert Invariant(AddItem(inv[i], item));
    }
  }

  /** `Remove(index)`: takes one unit from the slot at `index`. */
  function Remove(inv: seq<Slot>, index: int): (r: seq<Slot>)
    requires 0 <= index < |inv|
    ensures |r| == |inv|
    ensures forall j :: 0 <= j < |inv| && j != index ==> r[j] == inv[j]
    ensures r[index] == RemoveItem(inv[index])
    ensures inv[index].count == 0 ==> r == inv
    ensures inv[index].count > 0 ==> TotalCount(r) == TotalCount(inv) - 1
  {
    var r := inv[index := RemoveItem(inv[index])];
    TotalCountUpdate(inv, index, RemoveItem(inv[index]));
    r
  }

  /**
   * `Remove(index, numToRemove)`: all or nothing. A slot holding at least
   * `numToRemove` loses exactly that many (none for a negative request);
   * otherwise nothing changes.
   */
  function RemoveMany(inv: seq<Slot>, index: int, numToRemove: int): (r: seq<Slot>)
    requires 0 <= index < |inv|
    ensures |r| == |inv|
    ensures forall j :: 0 <= j < |inv| && j != index ==> r[j] == inv[j]
    ensures inv[index].count < numToRemove ==> r == inv
    ensures 0 <= numToRemove <= inv[index].count ==>
      && r[index].count == inv[index].count - numToRemove
      && TotalCount(r) == TotalCount(inv) - numToRemove
    ensures numToRemove <= 0 ==> r == inv
    ensures 0 < numToRemove == inv[index].count ==> IsEmpty(r[index]) && r[index].icon == NoSprite
    ensures r[index].maxAllowed == inv[index].maxAllowed
    ensures numToRemove < inv[index].count ==> r[index].itemName == inv[index].itemName && r[index].icon == inv[index].icon
  {
    if inv[index].count >= numToRemove then
      var k: nat := if numToRemove < 0 then 0 else numToRemove;
      RemoveTimesEffect(inv[index], k);
      TotalCountUpdate(inv, index, RemoveTimes(inv[index], k));
      inv[index := RemoveTimes(inv[index], k)]
    else
      inv
  }

  /** `Remove` and `RemoveMany` keep the slot invariant. */
  lemma RemovePreservesInvariant(inv: seq<Slot>, index: int, numToRemove: int)
    requires 0 <= index < |inv|
    requires forall i :: 0 <= i < |inv| ==> Invariant(inv[i])
    ensures forall i :: 0 <= i < |inv| ==> Invariant(Remove(inv, index)[i])
    ensures forall i :: 0 <= i < |inv| ==> Invariant(RemoveMany(inv, index, numToRemove)[i])
  {
    if 0 <= numToRemove <= inv[index].count {
      RemoveTimesEffect(inv[index], numToRemove);
    }
  }

  // ---------------------------------------------------------------------------
  // MoveSlot
  // ---------------------------------------------------------------------------

  /** The single capacity check `MoveSlot` makes, once, before its loop. */
  predicate Accepts(from: Slot, to: Slot) {
    IsEmpty(to) || CanAddItem(to, from.itemName)
  }

  /**
   * `k` rounds of the `MoveSlot` loop on two distinct slot objects: each round
   * adds one unit to `to` under `from`'s current name, icon and limit, then
   * removes one unit from `from`.
   */
  function MoveUnits(from: Slot, to: Slot, k: nat): (r: (Slot, Slot))
    decreases k
  {
    if k == 0 then (from, to)
    else MoveUnits(RemoveItem(from), AddItemWith(to, from.itemName, from.icon, from.maxAllowed), k - 1)
  }

  /**
   * What `k` rounds do: the source loses what it has, up to `k`; the
   * destination gains `k` whatever the source held; after at least one round
   * the destination carries the source's limit, and carries the source's
   * name and icon only if the source never ran dry mid-loop.
   */
  lemma {:induction false} MoveUnitsEffect(from: Slot, to: Slot, k: nat)
    ensures MoveUnits(from, to, k).0 == RemoveTimes(from, k)
    ensures MoveUnits(from, to, k).1.count == to.count + k
    ensures k == 0 ==> MoveUnits(from, to, k).1 == to
    ensures k > 0 ==> MoveUnits(from, to, k).1.maxAllowed == from.maxAllowed
    ensures k > 0 && (k <= from.count || from.count == 0) ==>
      MoveUnits(from, to, k).1.itemName == from.itemName && MoveUnits(from, to, k).1.icon == from.icon
    ensures 0 < from.count < k ==>
      MoveUnits(from, to, k).1.itemName == "" && MoveUnits(from, to, k).1.icon == NoSprite
    decreases k
  {
    if k > 0 {
      MoveUnitsEffect(RemoveItem(from), AddItemWith(to, from.itemName, from.icon, from.maxAllowed), k - 1);
    }
  }

  /**
   * `k` rounds of the loop when source and destination are the same slot
   * object: every round adds a unit and takes it straight back.
   */
  function MoveSelf(s: Slot, k: nat): (r: Slot)
    decreases k
  {
    if k == 0 then s else MoveSelf(RemoveItem(AddItemWith(s, s.itemName, s.icon, s.maxAllowed)), k - 1)
  }

  /** Moving a slot onto itself keeps its count; an empty slot loses any stale name and icon. */
  lemma {:induction false} MoveSelfEffect(s: Slot, k: nat)
    ensures MoveSelf(s, k).count == s.count
    ensures s.count > 0 || k == 0 ==> MoveSelf(s, k) == s
    ensures s.count == 0 && k > 0 ==> MoveSelf(s, k) == s.(itemName := "", icon := NoSprite)
    decreases k
  {
    if k > 0 {
      MoveSelfEffect(RemoveItem(AddItemWith(s, s.itemName, s.icon, s.maxAllowed)), k - 1);
    }
  }

  /** The loop count `numToMove`, with a non-positive value meaning no rounds. */
  function Rounds(numToMove: int): nat {
    if numToMove < 0 then 0 else numToMove
  }

  /** `MoveSlot` on two distinct slot objects: the capacity check, then the loop. */
  function MoveSlotPair(from: Slot, to: Slot, numToMove: int): (r: (Slot, Slot))
  {
    if Accepts(from, to) then MoveUnits(from, to, Rounds(numToMove)) else (from, to)
  }

  /**
   * `MoveSlot(fromIndex, toIndex, toInventory, numToMove)` when `toInventory`
   * is a different inventory object: returns the new source and destination.
   */
  function MoveSlotBetween(src: seq<Slot>, fromIndex: int, dst: seq<Slot>, toIndex: int, numToMove: int)
    : (r: (seq<Slot>, seq<Slot>))
    requires 0 <= fromIndex < |src| && 0 <= toIndex < |dst|
    ensures |r.0| == |src| && |r.1| == |dst|
    ensures forall j :: 0 <= j < |src| && j != fromIndex ==> r.0[j] == src[j]
    ensures forall j :: 0 <= j < |dst| && j != toIndex ==> r.1[j] == dst[j]
  {
    var (f, t) := MoveSlotPair(src[fromIndex], dst[toIndex], numToMove);
    (src[fromIndex := f], dst[toIndex := t])
  }

  /** `MoveSlot` when `toInventory` is the source inventory itself. */
  function MoveSlotWithin(inv: seq<Slot>, fromIndex: int, toIndex: int, numToMove: int): (r: seq<Slot>)
    requires 0 <= fromIndex < |inv| && 0 <= toIndex < |inv|
    ensures |r| == |inv|
    ensures forall j :: 0 <= j < |inv| && j != fromIndex && j != toIndex ==> r[j] == inv[j]
  {
    if fromIndex == toIndex then
      var s := inv[fromIndex];
      if Accepts(s, s) then inv[fromIndex := MoveSelf(s, Rounds(numToMove))] else inv
    else
      var (f, t) := MoveSlotPair(inv[fromIndex], inv[toIndex], numToMove);
      inv[fromIndex := f][toIndex := t]
  }

  /** A destination that is neither empty nor the same item with room: neither inventory changes. */
  lemma MoveRejected(src: seq<Slot>, fromIndex: int, dst: seq<Slot>, toIndex: int, numToMove: int)
    requires 0 <= fromIndex < |src| && 0 <= toIndex < |dst|
    requires !Accepts(src[fromIndex], dst[toIndex])
    ensures MoveSlotBetween(src, fromIndex, dst, toIndex, numToMove) == (src, dst)
  {
    assert src[fromIndex := src[fromIndex]] == src;
    assert dst[toIndex := dst[toIndex]] == dst;
  }

  /** The same inside one inventory: a rejected move between two distinct slots changes nothing. */
  lemma MoveRejectedWithin(inv: seq<Slot>, fromIndex: int, toIndex: int, numToMove: int)
    requires 0 <= fromIndex < |inv| && 0 <= toIndex < |inv| && fromIndex != toIndex
    requires !Accepts(inv[fromIndex], inv[toIndex])
    ensures MoveSlotWithin(inv, fromIndex, toIndex, numToMove) == inv
  {
    assert inv[fromIndex := inv[fromIndex]][toIndex := inv[toIndex]] == inv;
  }

  /**
   * An accepted move of at most what the source holds, between distinct
   * inventories: the source loses exactly `numToMove`, the destination gains
   * exactly `numToMove` and takes the source's name and limit, so the sum of
   * the two inventories is conserved.
   */
  lemma MoveConserves(src: seq<Slot>, fromIndex: int, dst: seq<Slot>, toIndex: int, numToMove: int)
    requires 0 <= fromIndex < |src| && 0 <= toIndex < |dst|
    requires Accepts(src[fromIndex], dst[toIndex])
    requires 0 <= numToMove <= src[fromIndex].count
    ensures var (s', d') := MoveSlotBetween(src, fromIndex, dst, toIndex, numToMove);
      && s'[fromIndex].count == src[fromIndex].count - numToMove
      && d'[toIndex].count == dst[toIndex].count + numToMove
      && TotalCount(s') + TotalCount(d') == TotalCount(src) + TotalCount(dst)
      && (numToMove > 0 ==>
            d'[toIndex].maxAllowed == src[fromIndex].maxAllowed && d'[toIndex].itemName == src[fromIndex].itemName)
  {
    var from, to := src[fromIndex], dst[toIndex];
    MoveUnitsEffect(from, to, numToMove);
    RemoveTimesEffect(from, numToMove);
    var (f, t) := MoveUnits(from, to, numToMove);
    TotalCountUpdate(src, fromIndex, f);
    TotalCountUpdate(dst, toIndex, t);
  }

  /**
   * Within one inventory, an accepted move between two distinct slots of at
   * most what the source holds conserves the inventory's total.
   */
  lemma MoveWithinConserves(inv: seq<Slot>, fromIndex: int, toIndex: int, numToMove: int)
    requires 0 <= fromIndex < |inv| && 0 <= toIndex < |inv| && fromIndex != toIndex
    requires Accepts(inv[fromIndex], inv[toIndex])
    requires 0 <= numToMove <= inv[fromIndex].count
    ensures MoveSlotWithin(inv, fromIndex, toIndex, numToMove)[fromIndex].count == inv[fromIndex].count - numToMove
    ensures MoveSlotWithin(inv, fromIndex, toIndex, numToMove)[toIndex].count == inv[toIndex].count + numToMove
    ensures TotalCount(MoveSlotWithin(inv, fromIndex, toIndex, numToMove)) == TotalCount(inv)
  {
    var from, to := inv[fromIndex], inv[toIndex];
    MoveUnitsEffect(from, to, numToMove);
    RemoveTimesEffect(from, numToMove);
    var (f, t) := MoveUnits(from, to, numToMove);
    TotalCountUpdate(inv, fromIndex, f);
    TotalCountUpdate(inv[fromIndex := f], toIndex, t);
  }

  /** Moving a slot onto itself never changes the count it holds, nor any other slot. */
  lemma MoveOntoItself(inv: seq<Slot>, index: int, numToMove: int)
    requires 0 <= index < |inv|
    ensures MoveSlotWithin(inv, index, index, numToMove)[index].count == inv[index].count
    ensures inv[index].count > 0 ==> MoveSlotWithin(inv, index, index, numToMove) == inv
  {
    MoveSelfEffect(inv[index], Rounds(numToMove));
  }

  /**
   * The capacity check happens only once, before the loop: an accepted move
   * can push the destination past its limit.
   */
  lemma MoveExceedsLimit(from: Slot, to: Slot, numToMove: int)
    requires Accepts(from, to)
    requires 0 < numToMove <= from.count
    requires to.count + numToMove > from.maxAllowed
    ensures MoveSlotPair(from, to, numToMove).1.count > MoveSlotPair(from, to, numToMove).1.maxAllowed
  {
    MoveUnitsEffect(from, to, numToMove);
  }

  /**
   * Moving more than the source holds keeps adding after the source runs dry:
   * the destination gains `numToMove` units although only `from.count` left
   * the source, and ends with an empty name and no icon.
   */
  lemma MoveOvershoot(from: Slot, to: Slot, numToMove: int)
    requires Accepts(from, to)
    requires 0 < from.count < numToMove
    ensures var (f, t) := MoveSlotPair(from, to, numToMove);
      && f.count == 0 && IsEmpty(f)
      && t.count == to.count + numToMove
      && t.count + f.count > to.count + from.count
      && t.itemName == "" && t.icon == NoSprite
  {
    MoveUnitsEffect(from, to, numToMove);
    RemoveTimesEffect(from, numToMove);
  }

  /** Moving from an empty slot into an empty slot still creates one unit, with an empty name. */
  lemma MoveFromEmptyCreatesUnit(from: Slot, to: Slot)
    requires IsEmpty(from) && IsEmpty(to)
    ensures MoveSlotPair(from, to, 1).1.itemName == ""
    ensures MoveSlotPair(from, to, 1).1.count == 1
    ensures MoveSlotPair(from, to, 1).0 == from
  {
  }

  /** Concrete instance of the limit overrun: 98 wood plus 5 more wood gives 103 under a limit of 99. */
  lemma MoveExceedsLimitExample()
    ensures var from := Slot("wood", 5, 99, Sprite(1));
            var to := Slot("wood", 98, 99, Sprite(1));
            MoveSlotPair(from, to, 5).1.count == 103 && !Invariant(MoveSlotPair(from, to, 5).1)
  {
    var from := Slot("wood", 5, 99, Sprite(1));
    var to := Slot("wood", 98, 99, Sprite(1));
    MoveExceedsLimit(from, to, 5);
    MoveUnitsEffect(from, to, 5);
  }

  // ---------------------------------------------------------------------------
  // MoveSlot with the checks it evidently intends
  // ---------------------------------------------------------------------------

  /**
   * The move the capacity check evidently intends: rejected in full unless
   * the destination is empty or holds the same item, the source holds at
   * least `numToMove`, and the destination stays within its limit afterwards.
   */
  predicate MoveAllowed(from: Slot, to: Slot, numToMove: int) {
    && (IsEmpty(to) || to.itemName == from.itemName)
    && 0 <= numToMove <= from.count
    && to.count + numToMove <= from.maxAllowed
  }

  /**
   * The corrected `MoveSlot` on two distinct slots: a move that is not
   * allowed changes nothing; an allowed one moves exactly `numToMove` units
   * under the source's name and keeps the destination within its limit.
   */
  function MoveChecked(from: Slot, to: Slot, numToMove: int): (r: (Slot, Slot))
    ensures !MoveAllowed(from, to, numToMove) ==> r == (from, to)
    ensures MoveAllowed(from, to, numToMove) ==>
      && r.0.count == from.count - numToMove
      && r.1.count == to.count + numToMove <= from.maxAllowed
      && (numToMove > 0 ==> r.1.itemName == from.itemName)
    ensures MoveAllowed(from, to, numToMove) ==> r.0 == RemoveTimes(from, numToMove)
    ensures MoveAllowed(from, to, numToMove) && numToMove < from.count ==>
      r.0.itemName == from.itemName && r.0.icon == from.icon && r.0.maxAllowed == from.maxAllowed
    ensures MoveAllowed(from, to, numToMove) && 0 < numToMove == from.count ==> IsEmpty(r.0) && r.0.icon == NoSprite
    ensures MoveAllowed(from, to, numToMove) && numToMove > 0 ==>
      r.1.icon == from.icon && r.1.maxAllowed == from.maxAllowed
    ensures MoveAllowed(from, to, numToMove) && numToMove == 0 ==> r == (from, to)
    ensures r.0.count + r.1.count == from.count + to.count
  {
    if MoveAllowed(from, to, numToMove) then
      MoveUnitsEffect(from, to, numToMove);
      RemoveTimesEffect(from, numToMove);
      MoveUnits(from, to, numToMove)
    else
      (from, to)
  }

  /**
   * The checked move either changes nothing or moves exactly `numToMove`
   * units, conserving the sum, and it keeps the slot invariant on both sides.
   */
  lemma MoveCheckedPreservesInvariant(from: Slot, to: Slot, numToMove: int)
    requires Invariant(from) && Invariant(to)
    ensures var (f, t) := MoveChecked(from, to, numToMove);
      && Invariant(f) && Invariant(t)
      && f.count + t.count == from.count + to.count
      && (MoveAllowed(from, to, numToMove) ==> t.count == to.count + numToMove)
      && (!MoveAllowed(from, to, numToMove) ==> f == from && t == to)
  {
    if MoveAllowed(from, to, numToMove) {
      MoveUnitsEffect(from, to, numToMove);
      RemoveTimesEffect(from, numToMove);
    }
  }

  /**
   * The checked move inside one inventory: two distinct slots go through
   * `MoveChecked`; a slot moved onto itself stays as it is.
   */
  function MoveCheckedWithin(inv: seq<Slot>, fromIndex: int, toIndex: int, numToMove: int): (r: seq<Slot>)
    requires 0 <= fromIndex < |inv| && 0 <= toIndex < |inv|
    ensures |r| == |inv|
    ensures forall j :: 0 <= j < |inv| && j != fromIndex && j != toIndex ==> r[j] == inv[j]
  {
    if fromIndex == toIndex then inv
    else
      var (f, t) := MoveChecked(inv[fromIndex], inv[toIndex], numToMove);
      inv[fromIndex := f][toIndex := t]
  }

  /** The calls that change an inventory, with `MoveSlot` in its checked form. */
  datatype InventoryCall =
    | AddCall(item: Item)
    | RemoveCall(index: int)
    | RemoveManyCall(index: int, numToRemove: int)
    | MoveCall(fromIndex: int, toIndex: int, numToMove: int)

  /** The call's indices name slots of an inventory with `size` slots, and an added item has a name. */
  predicate CallFits(size: int, c: InventoryCall) {
    match c
    case AddCall(item) => item.itemName != ""
    case RemoveCall(index) => 0 <= index < size
    case RemoveManyCall(index, _) => 0 <= index < size
    case MoveCall(fromIndex, toIndex, _) => 0 <= fromIndex < size && 0 <= toIndex < size
  }

  function ApplyCall(inv: seq<Slot>, c: InventoryCall): (r: seq<Slot>)
    requires CallFits(|inv|, c)
    ensures |r| == |inv|
  {
    match c
    case AddCall(item) => Add(inv, item)
    case RemoveCall(index) => Remove(inv, index)
    case RemoveManyCall(index, n) => RemoveMany(inv, index, n)
    case MoveCall(fromIndex, toIndex, n) => MoveCheckedWithin(inv, fromIndex, toIndex, n)
  }

  function ApplyCalls(inv: seq<Slot>, calls: seq<InventoryCall>): (r: seq<Slot>)
    requires forall i :: 0 <= i < |calls| ==> CallFits(|inv|, calls[i])
    ensures |r| == |inv|
    decreases |calls|
  {
    if |calls| == 0 then inv
    else ApplyCalls(ApplyCall(inv, calls[0]), calls[1..])
  }

  /** Every call keeps the slot invariant. */
  lemma ApplyCallPreservesInvariant(inv: seq<Slot>, c: InventoryCall)
    requires CallFits(|inv|, c)
    requires forall i :: 0 <= i < |inv| ==> Invariant(inv[i])
    ensures forall i :: 0 <= i < |inv| ==> Invariant(ApplyCall(inv, c)[i])
  {
    match c
    case AddCall(item) => AddPreservesInvariant(inv, item);
    case RemoveCall(index) => RemovePreservesInvariant(inv, index, 1);
    case RemoveManyCall(index, n) => RemovePreservesInvariant(inv, index, n);
    case MoveCall(fromIndex, toIndex, n) =>
      if fromIndex != toIndex {
        MoveCheckedPreservesInvariant(inv[fromIndex], inv[toIndex], n);
      }
  }

  /**
   * Starting from a fresh inventory of `numSlots` slots, any sequence of
   * calls keeps the number of slots, and every slot keeps a count between 0
   * and its limit, with a name exactly when the count is positive.
   */
  lemma {:induction false} CallsPreserveInvariant(inv: seq<Slot>, calls: seq<InventoryCall>)
    requires forall i :: 0 <= i < |calls| ==> CallFits(|inv|, calls[i])
    requires forall i :: 0 <= i < |inv| ==> Invariant(inv[i])
    ensures |ApplyCalls(inv, calls)| == |inv|
    ensures forall i :: 0 <= i < |inv| ==> Invariant(ApplyCalls(inv, calls)[i])
    decreases |calls|
  {
    if |calls| > 0 {
      ApplyCallPreservesInvariant(inv, calls[0]);
      CallsPreserveInvariant(ApplyCall(inv, calls[0]), calls[1..]);
    }
  }

  /** A fresh inventory keeps the slot invariant under any sequence of calls. */
  lemma FreshInventoryStaysValid(numSlots: nat, calls: seq<InventoryCall>)
    requires forall i :: 0 <= i < |calls| ==> CallFits(numSlots, calls[i])
    ensures |ApplyCalls(NewInventory(numSlots), calls)| == numSlots
    ensures forall i :: 0 <= i < numSlots ==>
      && ApplyCalls(NewInventory(numSlots), calls)[i].count <= ApplyCalls(NewInventory(numSlots), calls)[i].maxAllowed
      && Invariant(ApplyCalls(NewInventory(numSlots), calls)[i])
  {
    CallsPreserveInvariant(NewInventory(numSlots), calls);
  }

  // ---------------------------------------------------------------------------
  // Concrete scenarios
  // ---------------------------------------------------------------------------

  /** Two adds of the same item into an empty 3-slot inventory stack in slot 0. */
  lemma AddTwiceStacks()
    ensures var wood := Item("wood", Sprite(7));
            var inv := Add(Add(NewInventory(3), wood), wood);
            inv[0] == Slot("wood", 2, 99, Sprite(7)) && IsEmpty(inv[1]) && IsEmpty(inv[2])
  {
    var wood := Item("wood", Sprite(7));
    var inv0 := NewInventory(3);
    AddPicksChoice(inv0, wood);
    assert AddChoice(inv0, "wood", 0);
    var inv1 := Add(inv0, wood);
    AddPicksChoice(inv1, wood);
    assert AddChoice(inv1, "wood", 0);
  }

  /** A full stack is skipped: the next unit goes to the first empty slot. */
  lemma AddSkipsFullStack()
    ensures var wood := Item("wood", Sprite(7));
            var inv := [Slot("wood", 99, 99, Sprite(7)), NewSlot(), NewSlot()];
            Add(inv, wood) == [Slot("wood", 99, 99, Sprite(7)), Slot("wood", 1, 99, Sprite(7)), NewSlot()]
  {
    var wood := Item("wood", Sprite(7));
    var inv := [Slot("wood", 99, 99, Sprite(7)), NewSlot(), NewSlot()];
    AddPicksChoice(inv, wood);
    assert AddChoice(inv, "wood", 1);
  }

  /** Moving 3 of 5 stone into an empty slot of another inventory. */
  lemma MoveThreeStone()
    ensures var (s, d) := MoveSlotBetween([Slot("stone", 5, 99, Sprite(2))], 0, [NewSlot()], 0, 3);
            s == [Slot("stone", 2, 99, Sprite(2))] && d == [Slot("stone", 3, 99, Sprite(2))]
  {
    MoveUnitsEffect(Slot("stone", 5, 99, Sprite(2)), NewSlot(), 3);
    RemoveTimesEffect(Slot("stone", 5, 99, Sprite(2)), 3);
  }

  /** Removing both units of a two-unit stack empties the slot. */
  lemma RemoveWholeStack()
    ensures IsEmpty(RemoveMany([Slot("wood", 2, 99, Sprite(7))], 0, 2)[0])
  {
  }
}

=== FILE: inventory_ui.dfy ===
/**
 * The inventory panel: whether it is open, the views of its slots, and the
 * slot being dragged. It reads the player's inventory to draw it, and the
 * only inventory change it makes is dropping one unit of a catalogued item.
 */
module InventoryUI {
  import opened Wrappers
  import opened Inventory
  import opened ItemManager
  import opened Decimal
  import opened SlotsUI

  /** `dragged` is the index of the slot view a drag started on, or none. */
  datatype Panel = Panel(panelActive: bool, views: seq<SlotView>, dragged: Option<nat>)

  /** The panel together with the player's inventory it shows. */
  datatype Screen = Screen(panel: Panel, inv: seq<Slot>)

  /** How one slot view is drawn: the item when the slot has a name, empty otherwise. */
  function Draw(v: SlotView, s: Slot): SlotView
  {
    if s.itemName != "" then SetItem(v, Some(s)) else SetEmpty(v)
  }

  /**
   * `Refresh`: when there are as many views as slots, view `i` shows slot `i`
   * (its icon and its count) if the slot has a name and is cleared otherwise;
   * highlights are kept. With a different number of views nothing is drawn.
   */
  function Refresh(views: seq<SlotView>, inv: seq<Slot>): (r: seq<SlotView>)
    ensures |r| == |views|
    ensures |views| != |inv| ==> r == views
    ensures |views| == |inv| ==> forall i :: 0 <= i < |r| ==>
      && (ShowsItem(r[i]) <==> inv[i].itemName != "")
      && (inv[i].itemName != "" ==>
            r[i].sprite == inv[i].icon && r[i].text == NatToString(inv[i].count) && DigitsValue(r[i].text) == inv[i].count)
      && (inv[i].itemName == "" ==> ShowsEmpty(r[i]))
      && r[i].highlighted == views[i].highlighted
  {
    if |views| != |inv| then views
    else seq(|views|, i requires 0 <= i < |views| => Draw(views[i], inv[i]))
  }

  /** Refreshing twice in a row gives the same views as refreshing once. */
  lemma RefreshIdempotent(views: seq<SlotView>, inv: seq<Slot>)
    ensures Refresh(Refresh(views, inv), inv) == Refresh(views, inv)
  {
  }

  /**
   * The refreshed views are fixed by the inventory: two view lists with the
   * same highlights refresh to the same views.
   */
  lemma RefreshDeterminedByInventory(v: seq<SlotView>, w: seq<SlotView>, inv: seq<Slot>)
    requires |v| == |w| == |inv|
    requires forall i :: 0 <= i < |v| ==> v[i].highlighted == w[i].highlighted
    ensures Refresh(v, inv) == Refresh(w, inv)
  {
    assert forall i :: 0 <= i < |v| ==> Draw(v[i], inv[i]) == Draw(w[i], inv[i]);
  }

  /** `ToggleInventory`: opening the panel refreshes it; closing it leaves the views alone. */
  function ToggleInventory(s: Screen): (r: Screen)
    ensures r.panel.panelActive == !s.panel.panelActive
    ensures r.inv == s.inv && r.panel.dragged == s.panel.dragged
    ensures s.panel.panelActive ==> r.panel.views == s.panel.views
    ensures !s.panel.panelActive ==> r.panel.views == Refresh(s.panel.views, s.inv)
  {
    if !s.panel.panelActive then
      s.(panel := s.panel.(panelActive := true, views := Refresh(s.panel.views, s.inv)))
    else
      s.(panel := s.panel.(panelActive := false))
  }

  /** Toggling twice returns the panel to its open or closed state. */
  lemma ToggleTwice(s: Screen)
    ensures ToggleInventory(ToggleInventory(s)).panel.panelActive == s.panel.panelActive
    ensures ToggleInventory(ToggleInventory(s)).inv == s.inv
  {
  }

  /** `Update`: refresh every frame, then toggle when the inventory key went down. */
  function Update(s: Screen, toggleKeyDown: bool): (r: Screen)
    ensures r.inv == s.inv
    ensures r.panel.views == Refresh(s.panel.views, s.inv)
    ensures r.panel.panelActive == (s.panel.panelActive != toggleKeyDown)
    ensures r.panel.dragged == s.panel.dragged
  {
    RefreshIdempotent(s.panel.views, s.inv);
    var refreshed := s.(panel := s.panel.(views := Refresh(s.panel.views, s.inv)));
    if toggleKeyDown then ToggleInventory(refreshed) else refreshed
  }

  /** The outcome of the panel's `Remove`: the new screen and the item dropped into the world, if any. */
  datatype RemoveOutcome = RemoveOutcome(screen: Screen, dropped: Option<Item>)

  /**
   * `Remove(slotID)`: looks the slot's name up in the catalog; only when an
   * item is found is it dropped, one unit removed from the slot, and the
   * panel refreshed.
   */
  function Remove(s: Screen, catalog: Catalog, slotID: int): (r: RemoveOutcome)
    requires 0 <= slotID < |s.inv|
    ensures r.dropped == GetItemByName(catalog, s.inv[slotID].itemName)
    ensures r.dropped.None? ==> r.screen == s
    ensures r.dropped.Some? ==>
      && r.screen.inv == Inventory.Remove(s.inv, slotID)
      && r.screen.panel.views == Refresh(s.panel.views, r.screen.inv)
      && r.screen.panel.panelActive == s.panel.panelActive
      && r.screen.panel.dragged == s.panel.dragged
  {
    match GetItemByName(catalog, s.inv[slotID].itemName)
    case None => RemoveOutcome(s, None)
    case Some(item) =>
      var inv' := Inventory.Remove(s.inv, slotID);
      RemoveOutcome(Screen(s.panel.(views := Refresh(s.panel.views, inv')), inv'), Some(item))
  }

  /**
   * For a catalogued, occupied slot, the panel's `Remove` takes exactly one
   * unit from that slot and touches no other slot.
   */
  lemma RemoveTakesOneUnit(s: Screen, catalog: Catalog, slotID: int)
    requires 0 <= slotID < |s.inv|
    requires s.inv[slotID].itemName in catalog && s.inv[slotID].count > 0
    ensures var inv' := Remove(s, catalog, slotID).screen.inv;
      && |inv'| == |s.inv|
      && inv'[slotID].count == s.inv[slotID].count - 1
      && (forall j :: 0 <= j < |s.inv| && j != slotID ==> inv'[j] == s.inv[j])
      && TotalCount(inv') == TotalCount(s.inv) - 1
  {
  }

  /** The drag-and-drop callbacks of the panel. */
  datatype DragEvent = BeginDrag(slotView: nat) | Drag | EndDrag | Drop(target: nat)

  /**
   * The drag callbacks only record the dragged slot view (on begin) and
   * otherwise only log: the inventory and the views never change.
   */
  function HandleDrag(s: Screen, e: DragEvent): (r: Screen)
    ensures r.inv == s.inv
    ensures r.panel.views == s.panel.views && r.panel.panelActive == s.panel.panelActive
    ensures e.BeginDrag? ==> r.panel.dragged == Some(e.slotView)
    ensures !e.BeginDrag? ==> r == s
  {
    match e
    case BeginDrag(v) => s.(panel := s.panel.(dragged := Some(v)))
    case _ => s
  }

  /** Replaying the callbacks of a drag gesture, in order. */
  function HandleDrags(s: Screen, es: seq<DragEvent>): Screen
    decreases |es|
  {
    if |es| == 0 then s else HandleDrags(HandleDrag(s, es[0]), es[1..])
  }

  /** However many drag callbacks run, the inventory and the views stay as they were. */
  lemma {:induction false} DragsNeverMutate(s: Screen, es: seq<DragEvent>)
    ensures HandleDrags(s, es).inv == s.inv
    ensures HandleDrags(s, es).panel.views == s.panel.views
    decreases |es|
  {
    if |es| > 0 {
      DragsNeverMutate(HandleDrag(s, es[0]), es[1..]);
    }
  }
}

=== FILE: item_manager.dfy ===
/**
 * The item catalog: a name-to-item dictionary filled once at start-up from an
 * array of items, in array order, where the first item registered under a
 * name keeps it. Lookup of a name that was never registered yields no item.
 */
module ItemManager {
  import opened Wrappers
  import opened Inventory

  type Catalog = map<string, Item>

  /** `AddItem`: registers the item under its name unless the name is already taken. */
  function AddItem(c: Catalog, item: Item): (r: Catalog)
    ensures r.Keys == c.Keys + {item.itemName}
    ensures forall name :: name in c ==> r[name] == c[name]
    ensures item.itemName !in c ==> r[item.itemName] == item
  {
    if item.itemName in c then c else c[item.itemName := item]
  }

  /** `Awake`: registers every item of the array, in order, starting from an empty dictionary. */
  function Awake(items: seq<Item>): (r: Catalog)
    ensures r.Keys == set i | 0 <= i < |items| :: items[i].itemName
    ensures forall name :: name in r ==> r[name] in items
    decreases |items|
  {
    if |items| == 0 then map[]
    else
      var prefix := items[..|items| - 1];
      assert forall i :: 0 <= i < |prefix| ==> prefix[i] == items[i];
      AddItem(Awake(prefix), items[|items| - 1])
  }

  /** Index `i` holds the first item of the array that carries `name`. */
  ghost predicate FirstWithName(items: seq<Item>, name: string, i: int) {
    && 0 <= i < |items|
    && items[i].itemName == name
    && forall j :: 0 <= j < i ==> items[j].itemName != name
  }

  /**
   * After `Awake`, a name is registered exactly when some item carries it, and
   * it maps to the first such item in array order.
   */
  lemma {:induction false} AwakeFirstWins(items: seq<Item>)
    ensures forall name :: name in Awake(items) <==> exists i :: 0 <= i < |items| && items[i].itemName == name
    ensures forall name, i :: FirstWithName(items, name, i) ==> name in Awake(items) && Awake(items)[name] == items[i]
    decreases |items|
  {
    if |items| > 0 {
      var prefix := items[..|items| - 1];
      var last := items[|items| - 1];
      AwakeFirstWins(prefix);
      forall name | name in Awake(items)
        ensures exists i :: 0 <= i < |items| && items[i].itemName == name
      {
        if name in Awake(prefix) {
          var i :| 0 <= i < |prefix| && prefix[i].itemName == name;
          assert items[i].itemName == name;
        } else {
          assert items[|items| - 1].itemName == name;
        }
      }
      forall name, i | FirstWithName(items, name, i)
        ensures name in Awake(items) && Awake(items)[name] == items[i]
      {
        if i < |items| - 1 {
          assert FirstWithName(prefix, name, i);
        } else {
          forall j | 0 <= j < |prefix|
            ensures prefix[j].itemName != name
          {
            assert prefix[j] == items[j];
          }
          assert name !in Awake(prefix);
        }
      }
    }
  }

  /** `GetItemByName`: the registered item, or no item (a null reference) for an unknown name. */
  function GetItemByName(c: Catalog, key: string): (r: Option<Item>)
    ensures r.Some? <==> key in c
    ensures r.Some? ==> r.value == c[key]
  {
    if key in c then Some(c[key]) else None
  }

  /**
   * Lookup in the catalog `Awake` builds: the first item in the array with
   * that name, and no item at all when none carries it.
   */
  lemma LookupAfterAwake(items: seq<Item>, key: string)
    ensures forall i :: FirstWithName(items, key, i) ==> GetItemByName(Awake(items), key) == Some(items[i])
    ensures (forall i :: 0 <= i < |items| ==> items[i].itemName != key) <==> GetItemByName(Awake(items), key) == None
  {
    AwakeFirstWins(items);
  }

  /** A duplicate name later in the array is ignored: the earlier item stays registered. */
  lemma DuplicateIgnored()
    ensures var a := Item("wood", Sprite(1));
            var b := Item("wood", Sprite(2));
            GetItemByName(Awake([a, b]), "wood") == Some(a)
  {
    var a := Item("wood", Sprite(1));
    var b := Item("wood", Sprite(2));
    LookupAfterAwake([a, b], "wood");
    assert FirstWithName([a, b], "wood", 0);
  }
}

=== FILE: slots_ui.dfy ===
/**
 * The view of one inventory slot: the icon image (its sprite and whether it
 * is drawn), the quantity text, and the highlight marker. The view never
 * holds a reference back into the inventory.
 */
module SlotsUI {
  import opened Wrappers
  import opened Inventory
  import opened Decimal

  /** `iconAlpha` is the alpha of the icon colour: 1 draws the icon, 0 hides it. */
  datatype SlotView = SlotView(sprite: Sprite, iconAlpha: int, text: string, highlighted: bool)

  /** True when the view shows an item: a visible icon and a decimal quantity. */
  predicate ShowsItem(v: SlotView) {
    v.iconAlpha == 1 && |v.text| > 0 && AllDigits(v.text)
  }

  /** True when the view shows an empty slot: no sprite, a transparent icon and no text. */
  predicate ShowsEmpty(v: SlotView) {
    v.sprite == NoSprite && v.iconAlpha == 0 && v.text == ""
  }

  /**
   * `SetItem`: for a slot, shows its icon and count and keeps the highlight;
   * for a null slot, changes nothing.
   */
  function SetItem(v: SlotView, slot: Option<Slot>): (r: SlotView)
    ensures slot.None? ==> r == v
    ensures slot.Some? ==>
      && ShowsItem(r)
      && r.sprite == slot.value.icon
      && r.text == NatToString(slot.value.count)
      && DigitsValue(r.text) == slot.value.count
    ensures r.highlighted == v.highlighted
  {
    match slot
    case None => v
    case Some(s) =>
      NatToStringRoundTrip(s.count);
      v.(sprite := s.icon, iconAlpha := 1, text := NatToString(s.count))
  }

  /** `SetEmpty`: clears the sprite, hides the icon and clears the text; the highlight stays. */
  function SetEmpty(v: SlotView): (r: SlotView)
    ensures ShowsEmpty(r) && !ShowsItem(r)
    ensures r.highlighted == v.highlighted
  {
    v.(sprite := NoSprite, iconAlpha := 0, text := "")
  }

  /** `SetHighlight`: switches the highlight marker and nothing else. */
  function SetHighlight(v: SlotView, isOn: bool): (r: SlotView)
    ensures r.highlighted == isOn
    ensures r.(highlighted := v.highlighted) == v
  {
    v.(highlighted := isOn)
  }

  /** Clearing a view twice is the same as clearing it once. */
  lemma SetEmptyIdempotent(v: SlotView)
    ensures SetEmpty(SetEmpty(v)) == SetEmpty(v)
  {
  }

  /** Showing the same slot twice is the same as showing it once. */
  lemma SetItemIdempotent(v: SlotView, slot: Option<Slot>)
    ensures SetItem(SetItem(v, slot), slot) == SetItem(v, slot)
  {
  }

  /** What `SetItem` and `SetEmpty` produce does not depend on what the view showed before. */
  lemma ContentIndependentOfPrevious(v: SlotView, w: SlotView, s: Slot)
    requires v.highlighted == w.highlighted
    ensures SetItem(v, Some(s)) == SetItem(w, Some(s))
    ensures SetEmpty(v) == SetEmpty(w)
  {
  }
}

=== FILE: terrain_detector.dfy ===
/**
 * Terrain classification for footstep sounds: the name of the tile under the
 * player is lowercased and matched against an ordered list of keys; the first
 * key that occurs in the name gives the terrain, and Grass is the default.
 * The dictionary is an ordered association list, since classification
 * depends on the order in which the keys were added.
 */
module TerrainDetector {
  import opened Wrappers

  datatype TerrainType = Grass | Dirt | Gravel | Wood | Stone | Water

  type Mapping = seq<(string, TerrainType)>

  /** The detector's state: its tile mapping and the terrain it last reported. */
  datatype Detector = Detector(mapping: Mapping, currentTerrainType: TerrainType)

  predicate IsUpper(c: char) {
    'A' <= c <= 'Z'
  }

  /** ASCII lowercasing of one character; every other character is kept. */
  function ToLowerChar(c: char): (r: char)
    ensures !IsUpper(r)
    ensures IsUpper(c) ==> r as int == c as int + ('a' as int - 'A' as int) && 'a' <= r <= 'z'
    ensures !IsUpper(c) ==> r == c
  {
    if IsUpper(c) then (c as int + ('a' as int - 'A' as int)) as char else c
  }

  /** `ToLower`: lowercases each character and keeps the length. */
  function ToLower(s: string): (r: string)
    ensures |r| == |s|
    ensures forall i :: 0 <= i < |s| ==> r[i] == ToLowerChar(s[i]) && !IsUpper(r[i])
  {
    seq(|s|, i requires 0 <= i < |s| => ToLowerChar(s[i]))
  }

  /** A string with no upper-case letter. */
  predicate IsLowerCase(s: string) {
    forall i :: 0 <= i < |s| ==> !IsUpper(s[i])
  }

  /** Lowercasing a lower-case string changes nothing, so lowercasing twice is lowercasing once. */
  lemma ToLowerIdempotent(s: string)
    ensures IsLowerCase(ToLower(s))
    ensures IsLowerCase(s) ==> ToLower(s) == s
    ensures ToLower(ToLower(s)) == ToLower(s)
  {
  }

  /** `key` occurs in `s` starting at position `i`. */
  predicate OccursAt(s: string, key: string, i: int) {
    0 <= i && i + |key| <= |s| && s[i..i + |key|] == key
  }

  /** `String.Contains`: ordinal substring search, scanning from the left. */
  function Contains(s: string, key: string): (r: bool)
    ensures r <==> exists i :: OccursAt(s, key, i)
    decreases |s|
  {
    if |key| > |s| then false
    else if s[..|key|] == key then
      assert OccursAt(s, key, 0);
      true
    else
      var r := Contains(s[1..], key);
      if r then
        var i :| OccursAt(s[1..], key, i);
        assert s[1..][i..i + |key|] == s[i + 1..i + 1 + |key|];
        assert OccursAt(s, key, i + 1);
        r
      else
        NoOccurrenceAfterMismatch(s, key);
        r
  }

  /** No occurrence at position 0 and none in the tail means none at all. */
  lemma NoOccurrenceAfterMismatch(s: string, key: string)
    requires |key| <= |s| && s[..|key|] != key
    requires forall i :: !OccursAt(s[1..], key, i)
    ensures forall i :: !OccursAt(s, key, i)
  {
    forall i
      ensures !OccursAt(s, key, i)
    {
      assert s[..|key|] == s[0..|key|];
      if 0 < i && i + |key| <= |s| {
        assert s[1..][i - 1..i - 1 + |key|] == s[i..i + |key|];
        assert !OccursAt(s[1..], key, i - 1);
      }
    }
  }

  /** A key with a character the name lacks does not occur in the name. */
  lemma AbsentCharRulesOut(s: string, key: string, c: char)
    requires c in key && c !in s
    ensures !Contains(s, key)
  {
    var k :| 0 <= k < |key| && key[k] == c;
    forall i
      ensures !OccursAt(s, key, i)
    {
      if 0 <= i && i + |key| <= |s| {
        assert s[i..i + |key|][k] == s[i + k];
        assert s[i + k] in s;
      }
    }
  }

  /** `InitializeTileMapping`: the six keys, in the order they are added. */
  function InitializeTileMapping(): (m: Mapping)
    ensures |m| == 6
    ensures m[0].0 == "grass" && m[1].0 == "dirt" && m[2].0 == "gravel"
    ensures m[3].0 == "wood" && m[4].0 == "stone" && m[5].0 == "water"
    ensures forall i :: 0 <= i < |m| ==> m[i].1 == [Grass, Dirt, Gravel, Wood, Stone, Water][i]
    ensures forall i, j :: 0 <= i < j < |m| ==> m[i].0 != m[j].0
    ensures forall i :: 0 <= i < |m| ==> IsLowerCase(m[i].0) && |m[i].0| > 0
  {
    [("grass", Grass), ("dirt", Dirt), ("gravel", Gravel), ("wood", Wood), ("stone", Stone), ("water", Water)]
  }

  /** The terrain of the first key, in mapping order, that occurs in `name`; Grass if none does. */
  function FirstMatch(mapping: Mapping, name: string): (r: TerrainType)
    ensures r == Grass || exists j :: 0 <= j < |mapping| && Contains(name, mapping[j].0) && r == mapping[j].1
    ensures (exists j :: 0 <= j < |mapping| && Contains(name, mapping[j].0)) ==>
      exists j :: 0 <= j < |mapping| && Contains(name, mapping[j].0) && r == mapping[j].1
    ensures (forall j :: 0 <= j < |mapping| ==> !Contains(name, mapping[j].0)) ==> r == Grass
    decreases |mapping|
  {
    if |mapping| == 0 then Grass
    else if Contains(name, mapping[0].0) then mapping[0].1
    else FirstMatch(mapping[1..], name)
  }

  /**
   * The lookup loop of `DetectTerrain`: the lowercased tile name is matched
   * against the keys in order.
   */
  function Classify(mapping: Mapping, tileName: string): (r: TerrainType)
    ensures r == Grass || exists j :: 0 <= j < |mapping| && Contains(ToLower(tileName), mapping[j].0) && r == mapping[j].1
  {
    FirstMatch(mapping, ToLower(tileName))
  }

  /**
   * The first key, in mapping order, that occurs in the lowercased name
   * decides the terrain; when no key occurs, the result is Grass.
   */
  lemma {:induction false} ClassifyFirstKeyWins(mapping: Mapping, name: string)
    ensures forall j :: 0 <= j < |mapping| && Contains(name, mapping[j].0)
                        && (forall k :: 0 <= k < j ==> !Contains(name, mapping[k].0)) ==>
              FirstMatch(mapping, name) == mapping[j].1
    ensures (forall k :: 0 <= k < |mapping| ==> !Contains(name, mapping[k].0)) ==> FirstMatch(mapping, name) == Grass
    decreases |mapping|
  {
    if |mapping| > 0 {
      ClassifyFirstKeyWins(mapping[1..], name);
      forall j | 0 <= j < |mapping| && Contains(name, mapping[j].0)
                 && (forall k :: 0 <= k < j ==> !Contains(name, mapping[k].0))
        ensures FirstMatch(mapping, name) == mapping[j].1
      {
        if j > 0 {
          assert mapping[1..][j - 1] == mapping[j];
          forall k | 0 <= k < j - 1
            ensures !Contains(name, mapping[1..][k].0)
          {
            assert mapping[1..][k] == mapping[k + 1];
          }
        }
      }
      if forall k :: 0 <= k < |mapping| ==> !Contains(name, mapping[k].0) {
        forall k | 0 <= k < |mapping| - 1
          ensures !Contains(name, mapping[1..][k].0)
        {
          assert mapping[1..][k] == mapping[k + 1];
        }
      }
    }
  }

  /** Classification ignores letter case: a name and its lowercased form classify alike. */
  lemma ClassifyCaseInsensitive(mapping: Mapping, tileName: string)
    ensures Classify(mapping, tileName) == Classify(mapping, ToLower(tileName))
  {
    ToLowerIdempotent(tileName);
  }

  /** A fresh detector: no mapping yet, and Grass as the current terrain. */
  function NewDetector(): (d: Detector)
    ensures d.currentTerrainType == Grass && |d.mapping| == 0
  {
    Detector([], Grass)
  }

  /** `Start`: fills the mapping. */
  function Start(d: Detector): (r: Detector)
    ensures r.currentTerrainType == d.currentTerrainType
    ensures r.mapping == InitializeTileMapping()
  {
    d.(mapping := InitializeTileMapping())
  }

  /**
   * `SetTerrainType`: stores the type only when it differs from the current
   * one, and then passes it on to the audio manager if there is one
   * (`audioPresent`). The second component is the type passed on, if any.
   */
  function SetTerrainType(d: Detector, t: TerrainType, audioPresent: bool): (r: (Detector, Option<TerrainType>))
    ensures r.0.currentTerrainType == t && r.0.mapping == d.mapping
    ensures t == d.currentTerrainType ==> r == (d, None)
    ensures t != d.currentTerrainType ==> r.1 == (if audioPresent then Some(t) else None)
  {
    if t != d.currentTerrainType then
      (d.(currentTerrainType := t), if audioPresent then Some(t) else None)
    else
      (d, None)
  }

  /**
   * `GetCurrentTerrainType`: the type the detector holds, so storing the
   * returned type again changes nothing and announces nothing.
   */
  function GetCurrentTerrainType(d: Detector): (r: TerrainType)
    ensures SetTerrainType(d, r, true) == (d, None) && SetTerrainType(d, r, false) == (d, None)
  {
    d.currentTerrainType
  }

  /** The getter returns the last type stored, and storing it again announces nothing. */
  lemma GetReturnsLastSet(d: Detector, t: TerrainType, audioPresent: bool)
    ensures GetCurrentTerrainType(SetTerrainType(d, t, audioPresent).0) == t
    ensures SetTerrainType(SetTerrainType(d, t, audioPresent).0, t, audioPresent)
            == (SetTerrainType(d, t, audioPresent).0, None)
  {
  }

  /**
   * `DetectTerrain`: `tileName` is the name of the tile under the player, or
   * none when there is no tilemap or no tile there. Without a tile, or
   * without a matching key, the terrain becomes Grass.
   */
  function DetectTerrain(d: Detector, tileName: Option<string>, audioPresent: bool): (r: (Detector, Option<TerrainType>))
    ensures tileName.None? ==> r.0.currentTerrainType == Grass
    ensures tileName.Some? ==> r.0.currentTerrainType == Classify(d.mapping, tileName.value)
    ensures r.1.Some? <==> audioPresent && r.0.currentTerrainType != d.currentTerrainType
    ensures r.1.Some? ==> r.1.value == r.0.currentTerrainType
    ensures r.0.mapping == d.mapping
  {
    match tileName
    case None => SetTerrainType(d, Grass, audioPresent)
    case Some(name) => SetTerrainType(d, Classify(d.mapping, name), audioPresent)
  }

  /** Detecting on the same tile twice in a row announces nothing the second time. */
  lemma DetectTwiceQuiet(d: Detector, tileName: Option<string>, audioPresent: bool)
    ensures DetectTerrain(DetectTerrain(d, tileName, audioPresent).0, tileName, audioPresent).1 == None
    ensures DetectTerrain(DetectTerrain(d, tileName, audioPresent).0, tileName, audioPresent).0
            == DetectTerrain(d, tileName, audioPresent).0
  {
  }

  /** Key order decides: a tile named for both stone and dirt counts as dirt, whose key comes first. */
  lemma ClassifyStoneDirt()
    ensures Classify(InitializeTileMapping(), "Stone_Dirt") == Dirt
  {
    assert ToLower("Stone_Dirt") == "stone_dirt";
    assert OccursAt("stone_dirt", "dirt", 6);
    AbsentCharRulesOut("stone_dirt", "grass", 'g');
  }

  /** A tile name with no key in it falls back to Grass. */
  lemma ClassifySand()
    ensures Classify(InitializeTileMapping(), "Sand") == Grass
  {
    assert ToLower("Sand") == "sand";
    AbsentCharRulesOut("sand", "grass", 'g');
    AbsentCharRulesOut("sand", "dirt", 'i');
    AbsentCharRulesOut("sand", "gravel", 'g');
    AbsentCharRulesOut("sand", "wood", 'w');
    AbsentCharRulesOut("sand", "stone", 't');
    AbsentCharRulesOut("sand", "water", 'w');
  }
}

=== FILE: toolbar_ui.dfy ===
/**
 * The toolbar: a list of references to slot views (a reference may be null,
 * and two entries may name the same view), the view currently selected, and
 * the number keys 1 to 9 that select the first nine entries. Slot views are
 * identified by their index in `views`.
 */
module ToolbarUI {
  import opened Wrappers
  import opened SlotsUI

  datatype Toolbar = Toolbar(views: seq<SlotView>, toolbarSlots: seq<Option<nat>>, selected: Option<nat>)

  /** Every reference, listed or selected, names an existing view. */
  predicate Valid(t: Toolbar) {
    && (forall k :: 0 <= k < |t.toolbarSlots| ==> t.toolbarSlots[k].Some? ==> t.toolbarSlots[k].value < |t.views|)
    && (t.selected.Some? ==> t.selected.value < |t.views|)
  }

  /** Switches the highlight of the referenced view, if the reference is not null. */
  function HighlightRef(views: seq<SlotView>, ref: Option<nat>, isOn: bool): (r: seq<SlotView>)
    requires ref.Some? ==> ref.value < |views|
    ensures |r| == |views|
    ensures ref.Some? ==> r[ref.value].highlighted == isOn
    ensures ref.Some? ==> r[ref.value] == views[ref.value].(highlighted := isOn)
    ensures forall k :: 0 <= k < |views| && ref != Some(k) ==> r[k] == views[k]
  {
    if ref.Some? then views[ref.value := SetHighlight(views[ref.value], isOn)] else views
  }

  /**
   * `SelectSlot(index)`: outside `[0, count)` nothing happens; otherwise the
   * previous selection is un-highlighted, entry `index` becomes the selection
   * and is highlighted, and every other view is left alone.
   */
  function SelectSlot(t: Toolbar, index: int): (r: Toolbar)
    requires Valid(t)
    ensures Valid(r) && |r.views| == |t.views| && r.toolbarSlots == t.toolbarSlots
    ensures !(0 <= index < |t.toolbarSlots|) ==> r == t
    ensures 0 <= index < |t.toolbarSlots| ==>
      && r.selected == t.toolbarSlots[index]
      && (r.selected.Some? ==> r.views[r.selected.value].highlighted)
      && (t.selected.Some? && t.selected != r.selected ==> !r.views[t.selected.value].highlighted)
      && (forall k :: 0 <= k < |t.views| && Some(k) != t.selected && Some(k) != r.selected ==> r.views[k] == t.views[k])
    ensures forall k :: 0 <= k < |t.views| ==> r.views[k].(highlighted := t.views[k].highlighted) == t.views[k]
  {
    if |t.toolbarSlots| > 0 && 0 <= index < |t.toolbarSlots| then
      var cleared := HighlightRef(t.views, t.selected, false);
      var next := t.toolbarSlots[index];
      Toolbar(HighlightRef(cleared, next, true), t.toolbarSlots, next)
    else
      t
  }

  /** Only the selected view may be highlighted. */
  predicate OnlySelectedHighlighted(t: Toolbar) {
    forall k :: 0 <= k < |t.views| && t.views[k].highlighted ==> t.selected == Some(k)
  }

  /** A toolbar with nothing selected and nothing highlighted. */
  predicate Fresh(t: Toolbar) {
    t.selected.None? && forall k :: 0 <= k < |t.views| ==> !t.views[k].highlighted
  }

  /** Selecting keeps "only the selected view is highlighted". */
  lemma SelectKeepsSingleHighlight(t: Toolbar, index: int)
    requires Valid(t) && OnlySelectedHighlighted(t)
    ensures OnlySelectedHighlighted(SelectSlot(t, index))
  {
  }

  /** Any number of selections in a row. */
  function SelectAll(t: Toolbar, indices: seq<int>): (r: Toolbar)
    requires Valid(t)
    ensures Valid(r) && |r.views| == |t.views|
    decreases |indices|
  {
    if |indices| == 0 then t else SelectAll(SelectSlot(t, indices[0]), indices[1..])
  }

  /**
   * Starting with nothing selected and nothing highlighted, after any
   * sequence of selections at most one view is highlighted, and it is the
   * selected one.
   */
  lemma {:induction false} AtMostOneHighlighted(t: Toolbar, indices: seq<int>)
    requires Valid(t) && (Fresh(t) || OnlySelectedHighlighted(t))
    ensures OnlySelectedHighlighted(SelectAll(t, indices))
    ensures forall a, b :: 0 <= a < b < |t.views| ==>
      !(SelectAll(t, indices).views[a].highlighted && SelectAll(t, indices).views[b].highlighted)
    decreases |indices|
  {
    if |indices| > 0 {
      SelectKeepsSingleHighlight(t, indices[0]);
      AtMostOneHighlighted(SelectSlot(t, indices[0]), indices[1..]);
    }
  }

  /** `Start`: selects the first entry. */
  function Start(t: Toolbar): (r: Toolbar)
    requires Valid(t)
    ensures Valid(r) && |r.views| == |t.views| && r.toolbarSlots == t.toolbarSlots
    ensures |t.toolbarSlots| > 0 ==> r.selected == t.toolbarSlots[0]
    ensures |t.toolbarSlots| > 0 && r.selected.Some? ==> r.views[r.selected.value].highlighted
    ensures |t.toolbarSlots| == 0 ==> r == t
    ensures forall k :: 0 <= k < |t.views| ==> r.views[k].(highlighted := t.views[k].highlighted) == t.views[k]
    ensures OnlySelectedHighlighted(t) ==> OnlySelectedHighlighted(r)
  {
    SelectSlot(t, 0)
  }

  /** The number of number keys the toolbar listens to: `Alpha1` to `Alpha9`. */
  const KeyCount: int := 9

  /** Entry `i` of a toolbar with `count` entries is selected by a key that went down this frame. */
  predicate KeySelects(count: int, keysDown: set<int>, i: int) {
    0 <= i < KeyCount && i < count && i in keysDown
  }

  /**
   * The key loop from key `i` on: key `Alpha1 + i` going down selects entry
   * `i`. Either nothing changes, or the selection is the entry of some
   * selecting key from `i` on.
   */
  function CheckKeysFrom(t: Toolbar, keysDown: set<int>, i: int): (r: Toolbar)
    requires Valid(t) && 0 <= i <= KeyCount
    ensures Valid(r) && r.toolbarSlots == t.toolbarSlots && |r.views| == |t.views|
    ensures r == t || exists k :: i <= k && KeySelects(|t.toolbarSlots|, keysDown, k) && r.selected == t.toolbarSlots[k]
    ensures forall k :: 0 <= k < |t.views| ==> r.views[k].(highlighted := t.views[k].highlighted) == t.views[k]
    ensures OnlySelectedHighlighted(t) ==> OnlySelectedHighlighted(r)
    decreases KeyCount - i
  {
    if i == KeyCount then t
    else
      var t' := if i in keysDown then SelectSlot(t, i) else t;
      var r := CheckKeysFrom(t', keysDown, i + 1);
      assert forall k :: 0 <= k < |t.views| ==>
        r.views[k].(highlighted := t.views[k].highlighted) == t'.views[k].(highlighted := t.views[k].highlighted);
      r
  }

  /**
   * `CheckAlphaNumericKeys`: `keysDown` holds `i` when key `Alpha1 + i` went
   * down this frame. The toolbar is either unchanged or has selected the
   * entry of one of the pressed keys.
   */
  function CheckAlphaNumericKeys(t: Toolbar, keysDown: set<int>): (r: Toolbar)
    requires Valid(t)
    ensures Valid(r) && r.toolbarSlots == t.toolbarSlots && |r.views| == |t.views|
    ensures r == t || exists k :: KeySelects(|t.toolbarSlots|, keysDown, k) && r.selected == t.toolbarSlots[k]
    ensures forall k :: 0 <= k < |t.views| ==> r.views[k].(highlighted := t.views[k].highlighted) == t.views[k]
    ensures OnlySelectedHighlighted(t) ==> OnlySelectedHighlighted(r)
  {
    CheckKeysFrom(t, keysDown, 0)
  }

  /** With no selecting key from `i` on, the loop changes nothing. */
  lemma {:induction false} NoKeyFromUnchanged(t: Toolbar, keysDown: set<int>, i: int)
    requires Valid(t) && 0 <= i <= KeyCount
    requires forall k :: i <= k ==> !KeySelects(|t.toolbarSlots|, keysDown, k)
    ensures CheckKeysFrom(t, keysDown, i) == t
    decreases KeyCount - i
  {
    if i < KeyCount {
      assert !KeySelects(|t.toolbarSlots|, keysDown, i);
      NoKeyFromUnchanged(if i in keysDown then SelectSlot(t, i) else t, keysDown, i + 1);
    }
  }

  /** From `i` on, the highest selecting key decides the selection. */
  lemma {:induction false} HighestKeyFromWins(t: Toolbar, keysDown: set<int>, i: int, j: int)
    requires Valid(t) && 0 <= i <= j
    requires KeySelects(|t.toolbarSlots|, keysDown, j)
    requires forall k :: j < k ==> !KeySelects(|t.toolbarSlots|, keysDown, k)
    ensures CheckKeysFrom(t, keysDown, i).selected == t.toolbarSlots[j]
    decreases KeyCount - i
  {
    var t' := if i in keysDown then SelectSlot(t, i) else t;
    if i == j {
      NoKeyFromUnchanged(t', keysDown, i + 1);
    } else {
      HighestKeyFromWins(t', keysDown, i + 1, j);
    }
  }

  /**
   * When several number keys go down in one frame, the highest one that names
   * an existing entry wins; when none does, nothing changes.
   */
  lemma HighestKeyWins(t: Toolbar, keysDown: set<int>)
    requires Valid(t)
    ensures forall j :: KeySelects(|t.toolbarSlots|, keysDown, j) && (forall k :: j < k ==> !KeySelects(|t.toolbarSlots|, keysDown, k)) ==>
      CheckAlphaNumericKeys(t, keysDown).selected == t.toolbarSlots[j]
    ensures (forall k :: !KeySelects(|t.toolbarSlots|, keysDown, k)) ==> CheckAlphaNumericKeys(t, keysDown) == t
  {
    forall j | KeySelects(|t.toolbarSlots|, keysDown, j) && (forall k :: j < k ==> !KeySelects(|t.toolbarSlots|, keysDown, k))
      ensures CheckAlphaNumericKeys(t, keysDown).selected == t.toolbarSlots[j]
    {
      HighestKeyFromWins(t, keysDown, 0, j);
    }
    if forall k :: !KeySelects(|t.toolbarSlots|, keysDown, k) {
      NoKeyFromUnchanged(t, keysDown, 0);
    }
  }
}

=== FILE: wrappers.dfy ===
/** The optional value used wherever the game code returns or stores a null reference. */
module Wrappers {

  datatype Option<+T> = None | Some(value: T)
}
